=== FILE: README.md ===
# CellAssign data preparation, in Dafny

This project models the pure logic of `CellAssign` in the scRNA pipeline's
`software/cellassign.py`. That logic prepares single-cell count matrices for
the CellAssign EM fit and turns the fit's numeric cell-type codes back into
cell-type names. It covers four pieces:

- **Common genes** (`common_genes`). Each dataset's gene symbols are
  uppercased and intersected. The first dataset is read through the
  caller's symbol column; every later one through the fixed column
  `"Symbol"`.
- **Loading one dataset** (`load`). The steps, in order:
  - keep the rows of common genes;
  - the cell filter;
  - the transcript filter;
  - a final pass that drops all-zero rows together with their barcodes.
- **Pooling samples** (`run_em`). Every sample is loaded, stacked column-wise
  and its barcodes appended. The shape is checked against the marker matrix.
- **Relabelling** (`run_em`). Codes are mapped to names by sorting the
  distinct codes and zipping them with the marker reference's cell types.

Everything is modelled as the code behaves, including the behaviour its
names do not suggest:

- the cell filter keeps the cells that *contain* a zero count;
- the transcript filter tests the stale loop variable `row`, the last cell
  of the cell filter's loop, instead of the column it iterates over;
- `common_genes` reads later datasets through `"Symbol"` whatever `symbol` is;
- `zip` truncates silently, at lines 63, 72 and 132;
- barcodes are not filtered with the cells. With the default flags, a
  surviving cell therefore carries the barcode at its position among the
  zero-containing cells, not its own.

Failures of the Python code become `Err` values of `Failures.Result`:

- `KeyError` on a metadata column;
- a failed `assert`;
- `UnboundLocalError`/`NameError` for `row` and `_matrix` when the cell filter
  did not run (Python 3 scoping: the comprehension variable `row` of line 49
  does not leak, so line 64 sees no `row` unless the loop of line 54 ran);
- a shape mismatch in `numpy.hstack`;
- `IndexError` on a flat empty array;
- `KeyError` in the label dictionary.

numpy matrices are `Matrices.Matrix`: a rectangular grid with an explicit
height and width. The flat empty array `numpy.array([])` is the 0 x 0 grid.
A row selection that keeps nothing still has its width, like numpy's `(0, n)`.

Modules (one file each): `Failures`, `Seqs` (zip, masks, order-preserving
filters), `Matrices`, `Symbols` (ASCII uppercasing), `Datasets`, `GeneSets`
(`common_genes`), `Loader` (`load`), `Labels` (the code-to-name remap) and
`RunEm` (the rest of `run_em`).

## Model

| member | source | states |
|---|---|---|
| Symbols.Upper | software/cellassign.py:32 | Uppercasing keeps the length, maps each character through the ASCII case map, and leaves no lowercase letter. |
| Symbols.UpperAll | software/cellassign.py:43 | `list(map(upper, symbols))` uppercases each symbol in place, keeping order and length. |
| Symbols.UpperSet | software/cellassign.py:32 | `set(map(upper, symbols))` holds exactly the uppercase forms of the symbols. |
| Symbols.UpperIdempotent | software/cellassign.py:32 | Uppercasing twice is uppercasing once, so every common gene is its own uppercase. |
| GeneSets.GenesOf | software/cellassign.py:32-35 | A dataset's genes under a column are exactly the uppercase forms of that column's entries, and each equals its own uppercase. |
| GeneSets.IntersectLater | software/cellassign.py:33-36 | The loop over the later datasets succeeds iff each has a "Symbol" column; the result is the running set cut down to genes every later dataset lists under "Symbol"; failure is KeyError "Symbol". |
| GeneSets.CommonGenes | software/cellassign.py:30-37 | Succeeds iff there is a first dataset with column `symbol` and all later ones have "Symbol"; a gene is common iff it is the uppercase of a first-dataset `symbol` entry and of a "Symbol" entry in every later dataset; the errors come in the code's order. |
| GeneSets.CommonGenesAreUppercase | software/cellassign.py:32-37 | Every common gene equals its own uppercase. |
| GeneSets.CommonGenesLaterOrderIrrelevant | software/cellassign.py:33-36 | Permuting the datasets after the first leaves the result unchanged. |
| GeneSets.CommonGenesFirstDatasetIsSpecial | software/cellassign.py:32-35 | With symbol column "gene", swapping two datasets changes the result from {"A"} to {"B"}, because only the first is read through `symbol`. |
| GeneSets.CommonGenesTwoDatasetExample | software/cellassign.py:30-37 | {A,B,C} and {B,C,D} have common genes {B,C}. |
| GeneSets.CommonGenesRepeatLater | software/cellassign.py:33-36 | Repeating a later dataset does not change the result. |
| Seqs.Zip | software/cellassign.py:72 | `zip` pairs positions up to the shorter input and drops the rest. |
| Seqs.Filter | software/cellassign.py:72-75 | An append-if loop keeps exactly the passing elements, at the increasing positions where the test holds. |
| Seqs.FilterIdempotent | software/cellassign.py:72-75 | Filtering an already filtered list changes nothing. |
| Matrices.Transpose | software/cellassign.py:52 | `numpy.transpose` swaps the shape and mirrors every entry. |
| Matrices.TransposeTwice | software/cellassign.py:60 | Transposing twice restores the matrix. |
| Matrices.FromRows | software/cellassign.py:58 | `numpy.array(_matrix)` (lines 58 and 68) keeps the rows; an empty list is the flat empty array, with no rows and no columns. |
| Matrices.ZeroCount | software/cellassign.py:56 | `list(row).count(0)` is the multiplicity of 0 in the row, at most its length. |
| Matrices.HasZero | software/cellassign.py:56 | The cell filter's `count(0) > 0` test holds iff the row contains a zero. |
| Matrices.NotAllZero | software/cellassign.py:73 | The final pass's `count(0.0) != len(row)` test holds iff the row has a nonzero entry, so an empty row fails it. |
| Matrices.HasZeroMeansZeroEntry | software/cellassign.py:56 | `row.count(0) > 0` holds iff the row has a zero entry. |
| Matrices.NotAllZeroMeansLive | software/cellassign.py:73 | `row.count(0) != len(row)` holds iff the row has a nonzero entry. |
| Matrices.HStack | software/cellassign.py:112 | `numpy.hstack` succeeds iff the row counts agree; the width is the sum of widths; otherwise a shape error. |
| Matrices.HStackAppendsColumns | software/cellassign.py:112 | The stacked matrix's columns are the left matrix's columns followed by the right one's. |
| Loader.GeneMask | software/cellassign.py:46-49 | The mask has one entry per gene, true iff that gene is common. |
| Loader.SubsetRows | software/cellassign.py:46-49 | Keeps the rows at exactly the positions whose gene is common, in order, duplicates included, keeping the cell count. |
| Loader.DistinctCommon | software/cellassign.py:51 | `set(genes) & set(common_genes)` holds exactly the listed genes that are common, and is no larger than the gene list. |
| Loader.CellsOf | software/cellassign.py:49-52 | Transposing the subset gives one row per cell; its columns are the kept gene rows, in order. |
| Loader.DistinctCommonAtMostRows | software/cellassign.py:49-51 | The set of distinct common genes is no larger than the number of rows the subset keeps. |
| Loader.CellFilter | software/cellassign.py:53-58 | Keeps, in order, exactly the cells with a zero count; the loop variable `row` ends as the last cell, kept or not, and is unbound when there are no cells. |
| Loader.TranscriptFilter | software/cellassign.py:59-68 | Iterates min(distinct genes, gene rows) times; keeps all those gene rows if the stale `row` has a zero, none otherwise; fails with unbound `row` when the loop runs without a last cell, else with unbound `_matrix` when the cell filter did not run. |
| Loader.FinalPass | software/cellassign.py:69-76 | Keeps, in order and in lockstep with their barcodes, exactly the non-all-zero rows among the first min(barcodes, rows); equal counts, at most that minimum. |
| Loader.FinalPassIdempotent | software/cellassign.py:72-76 | Running the final pass on its own output gives the same output. |
| Loader.Finish | software/cellassign.py:69-80 | One barcode per output column, no more than the input barcodes; every output column has a nonzero count; an empty result has neither rows nor columns. |
| Loader.Filtered | software/cellassign.py:52-68 | The filters succeed iff the transcript filter is off or the cell filter is on; with the transcript filter off they hand on the cell-filtered cells, or all cells when the cell filter is off too; the only failure is unbound `row` when some common gene makes the loop of line 63 run, unbound `_matrix` otherwise. |
| Loader.Pipeline | software/cellassign.py:49-80 | Same success condition and the same error as the filters: the final pass never fails. |
| Loader.Load | software/cellassign.py:40-80 | Succeeds iff the symbol, "Symbol", "Barcode" and assay keys exist, the gene count equals the row count, and the flags are consistent; the errors come in the code's order, ending with unbound `row` or `_matrix` as the filters report; one barcode per live output column. |
| Loader.FilteredWithBothFilters | software/cellassign.py:51-68 | With both filters the result is empty when the last cell has no zero, else it holds the first distinct-common-gene-count genes of the zero-containing cells, transposed. |
| Loader.FinishShape | software/cellassign.py:69-80 | A non-empty result keeps the filtered matrix's row count; an empty filtered matrix gives an empty result with no barcodes. |
| Loader.FinishKeepsColumns | software/cellassign.py:69-80 | Every output column is a column of the filtered matrix, under the barcode at that column's position. |
| Loader.FinishTakesCellPrefixes | software/cellassign.py:69-80 | When the filtered matrix transposes a prefix of some cells, each output column is one of those cells cut to the gene count, with the barcode at that cell's position. |
| Loader.PipelineIsFinish | software/cellassign.py:69-80 | A successful load is the final pass over the filtered matrix. |
| Loader.PipelineWithDefaultFlags | software/cellassign.py:51-80 | With the default flags the result has at most one row per distinct common gene, exactly that many if any cell survives, and is empty when the last cell is absent or zero-free. |
| Loader.PipelineDefaultColumnsAreCells | software/cellassign.py:53-76 | With the default flags each output column is a zero-containing cell, carrying the barcode at its position among the zero-containing cells. |
| Loader.PipelineWithoutTranscriptFilter | software/cellassign.py:60-76 | With the transcript filter off the final pass walks gene rows: at most one barcode per subset gene row, and a non-empty result has one row per cell kept. |
| Loader.PipelineWithoutFiltersColumnsAreGenes | software/cellassign.py:52-76 | With both filters off each output column is a gene row of the subset, under the barcode at that gene row's position. |
| Loader.ZeroCellGeneRows | software/cellassign.py:53-58 | One entry per subset gene row: that row restricted to the zero-containing cells. |
| Loader.PipelineCellFilterOnlyColumnsAreGenes | software/cellassign.py:52-76 | With only the cell filter on each output column is a subset gene row restricted to the zero-containing cells, under the barcode at that gene row's position. |
| Loader.LoadPairsBarcodesByFilteredPosition | software/cellassign.py:40-80 | Cells "AAA" (no zero) and "CCC" (with a zero): the counts of "CCC" come back under barcode "AAA". |
| Labels.SortedCodes | software/cellassign.py:132 | `sorted(list(set(codes)))` is strictly increasing and holds exactly the codes. |
| Labels.SortedCodesUnique | software/cellassign.py:132 | Any strictly increasing listing of the distinct codes equals the sorted codes. |
| Labels.Table | software/cellassign.py:132 | `dict(pairs)` has a key iff some pair has it. |
| Labels.TableLastWins | software/cellassign.py:132 | A pair whose key does not recur later gives that key's value. |
| Labels.Conversion | software/cellassign.py:132 | Every key of the conversion dictionary is one of the codes, and every value one of the cell types. |
| Labels.Translate | software/cellassign.py:133-135 | Succeeds iff every code has an entry; the labels are the entries in order; otherwise fails at the first missing code. |
| Labels.RankIsSortedPosition | software/cellassign.py:132 | A code's rank (the number of smaller distinct codes) is its position in the sorted codes. |
| Labels.ConversionByRank | software/cellassign.py:132 | The conversion dictionary has a code iff its rank is below the number of cell types, and maps it to the cell type at its rank. |
| Labels.Remap | software/cellassign.py:130-136 | Succeeds iff every code's rank is below the number of cell types; the labels keep the codes' length and order, each the cell type at its code's rank and so one of the cell types; otherwise fails at the first code whose rank is too high. |
| Labels.RemapFromRanks | software/cellassign.py:132-136 | Labels equal to the cell types at their codes' ranks are exactly what the remap returns. |
| Labels.RankOrdersCodes | software/cellassign.py:132 | One code is smaller than another iff its rank is smaller, so the labels follow the cell-type order. |
| Labels.RemapSucceedsWhenTypesSuffice | software/cellassign.py:132-135 | With no more distinct codes than cell types the remap never fails. |
| Labels.RemapSeparatesCodes | software/cellassign.py:132-136 | With distinct cell-type names two cells get the same label iff they have the same code. |
| Labels.RemapCoversTypes | software/cellassign.py:132-136 | With exactly as many distinct codes as cell types the remap succeeds and every cell type labels some cell, so with `RemapSeparatesCodes` it is a bijection from distinct codes to cell types. |
| Labels.RemapExample | software/cellassign.py:132-136 | Codes [2,1,2,1] with ["Tcell","Bcell"] become ["Bcell","Tcell","Bcell","Tcell"]. |
| RunEm.AllData | software/cellassign.py:101-104 | The dataset list starts with the first dataset, followed by the additional ones when given. |
| RunEm.FitGenes | software/cellassign.py:105-107 | A fit gene is a marker gene that is common to all datasets; it is uppercase; failures are those of the common-gene step. |
| RunEm.SampleFailure | software/cellassign.py:111-112 | The error at a failing sample is its load's error, or else the row-count mismatch that `numpy.hstack` reports against the pool. |
| RunEm.Pool | software/cellassign.py:109-113 | Pooling succeeds iff every sample loads with the pool's row count; otherwise it fails at the first sample that does not, with that load's error or the hstack shape error; it keeps the row count, never loses columns, and keeps one barcode per column. |
| RunEm.LoadEach | software/cellassign.py:110-111 | Loading every sample succeeds iff each load does, giving each load's result in order. |
| RunEm.PoolLoadsEverySample | software/cellassign.py:110-112 | A successful pool loaded every sample, each with the pool's row count. |
| RunEm.PoolAppendsColumns | software/cellassign.py:112 | The pooled columns are the first matrix's, then each sample's in turn. |
| RunEm.PoolAppendsBarcodes | software/cellassign.py:113 | The pooled barcodes are the first list, then each sample's in turn. |
| RunEm.AllColumnsCount | software/cellassign.py:112 | The samples' columns listed together number the sum of their widths. |
| RunEm.Gather | software/cellassign.py:101-114 | Fails with the common-gene error, else the first dataset's load error, else the pooling error; otherwise returns the marker genes common to all datasets and the first dataset's load pooled with the additional samples, all loaded against those genes; one barcode per pooled column. |
| RunEm.GatherConcatenatesSamples | software/cellassign.py:108-114 | The pooled matrix is the first dataset's cells then each additional dataset's, its width the sum of theirs, with the barcodes in the same order. |
| RunEm.Prepare | software/cellassign.py:114-122 | Fails with the gathering error if gathering fails; otherwise the dimension assert of line 122 passes iff the pool is non-empty and its gene count equals the marker matrix's row count, failing with the flat-array IndexError for an empty pool and the dimension AssertionError otherwise; on success there is one barcode per cell row, and the expression matrix transposes back to the pooled counts. |
| RunEm.RunEm | software/cellassign.py:98-136 | Fails with the preparation error if preparation fails; otherwise succeeds iff every fitted code's rank is below the number of cell types, failing with the relabelling's KeyError; a saved fit has one label per fitted cell, each the cell type at its code's rank and so one of the reference's cell types, and carries the prepared barcodes. |

## Left out

- Reading `.rdata` files (`SingleCellExperiment.fromRData`): a dataset is
  its row metadata, column metadata and assays, given directly.
- `GeneMarkerMatrix` and `TenxAnalysis` are not part of this model. The
  marker reference enters as its gene list, its cell types, and a function
  giving the marker matrix for a gene set.
- Everything that runs R via rpy2 is outside the model. The size factors
  (`calcNormFactors`, floating point, lines 116-117) feed only the fit. The
  fit itself (`cellassign_em`, or the Rscript subprocess reading it back,
  lines 123-129) is a function parameter from the expression and marker
  matrices to a list of integer codes. `saveRDS`/`readRDS`, `pickle.dump`
  and `print` are I/O.
- `write_input`, `run_command_line` and `command` write files and start a
  subprocess; they have no logic to model.
- The fit's other output fields (line 130) are not modelled; only
  `cell_type` and the added `Barcode` list are.
- The `workflows/` files are task wiring and file handling, and are not part
  of this model.
- Python 2 semantics: under Python 2 the comprehension at line 49 would
  leak `row`, so the transcript filter could run without the cell filter.
  The model follows Python 3, where it cannot.
- Symbols.Upper: ASCII letters only, where Python's `str.upper` is full
  Unicode.
- Counts are natural numbers. The float and int conversions of lines 56, 64
  and 73 make no difference on integer counts.
- Loader.SubsetRows: numpy indexes with an empty float array when there are
  no genes (line 49). That case is modelled as an empty selection keeping
  the width.
- Loader.TranscriptFilter: the Python loop walks a set, in an order Python
  does not fix. Only the number of iterations reaches the result, so the
  model uses the set's size.
- RunEm.Prepare: an empty pool is reported at the dimension check (line
  122, `IndexError` on the flat array). The R size-factor call at line 116
  would fail first, but it is outside the model.
- RunEm.RunEm: the marker matrix's row count is whatever the marker
  reference reports for the gene set. Whether it equals the gene count is a
  property of `GeneMarkerMatrix`, which is not part of this model.

=== FILE: datasets.dfy ===
/** A loaded single-cell experiment, reduced to what the preparation code
    reads: named row-metadata columns (gene annotations such as "Symbol"),
    named column-metadata columns (such as "Barcode"), and named assays,
    each a genes x cells count matrix. Reading the container from storage
    is not part of this model. */
module Datasets {
  import opened Matrices

  datatype Dataset = Dataset(
    rowData: map<string, seq<string>>,
    colData: map<string, seq<string>>,
    assays: map<string, Matrix>)

  /** What loading one dataset returns: a matrix and its barcodes. */
  datatype Loaded = Loaded(matrix: Matrix, barcodes: seq<string>)
}

=== FILE: failures.dfy ===
/** Failure values of the cell-assignment data preparation.
    Every `assert`, `KeyError`, `IndexError`, `ValueError` and unbound local
    variable that the Python code can hit becomes one `Error` case, carried by
    a `Result` that works with Dafny's `:-` operator. */
module Failures {

  datatype Option<+T> = None | Some(value: T)

  datatype Error =
    /** `sces[0]` on an empty dataset list (IndexError) */
    | NoDatasets
    /** `assert symbol in rowData.keys()` failed */
    | MissingSymbolColumn(column: string)
    /** a dictionary-like lookup raised KeyError */
    | MissingKey(key: string)
    /** `assert len(genes) == matrix.shape[0]` failed */
    | GeneCountMismatch(genes: nat, rows: nat)
    /** a local variable was read before any assignment (UnboundLocalError) */
    | UnboundLocal(name: string)
    /** `numpy.hstack` on arrays with different row counts (ValueError) */
    | StackMismatch(left: nat, right: nat)
    /** `shape[1]` of a flat (one-dimensional, empty) array (IndexError) */
    | FlatMatrix
    /** the gene dimension differs from the marker matrix row count */
    | DimensionMismatch(genes: nat, markers: nat)
    /** a cell-type code with no entry in the code-to-label table (KeyError) */
    | UnknownCode(code: int)

  datatype Result<+T> = Ok(value: T) | Err(error: Error) {

    predicate IsFailure() {
      Err?
    }

    function PropagateFailure<U>(): Result<U>
      requires Err?
    {
      Err(error)
    }

    function Extract(): T
      requires Ok?
    {
      value
    }
  }
}

=== FILE: genesets.dfy ===
/** The common-gene intersection (`CellAssign.common_genes`): the uppercased
    gene symbols present in every dataset. The first dataset is read through
    the caller's symbol column; every later one through the fixed column
    "Symbol". The Python function returns `list(genes)`, whose order is
    that of a set and carries no meaning, so the result is a set here. */
module GeneSets {
  import opened Failures
  import opened Symbols
  import opened Datasets

  /** The column every dataset after the first is read through. */
  const SymbolColumn := "Symbol"

  /** The symbols of `d`'s row-metadata column `column`, uppercased. */
  function GenesOf(d: Dataset, column: string): (r: set<string>)
    requires column in d.rowData
    ensures forall x :: x in r <==> exists i :: 0 <= i < |d.rowData[column]| && Upper(d.rowData[column][i]) == x
    ensures forall x :: x in r ==> Upper(x) == x
  {
    UpperSet(d.rowData[column])
  }

  /** The loop over `sces[1:]`: intersect the running set with each later
      dataset's "Symbol" genes, failing with KeyError on the first dataset
      that lacks the column. */
  function IntersectLater(acc: set<string>, rest: seq<Dataset>): (r: Result<set<string>>)
    ensures r.Ok? <==> forall d :: d in rest ==> SymbolColumn in d.rowData
    ensures r.Err? ==> r.error == MissingKey(SymbolColumn)
    ensures r.Ok? ==> forall x :: x in r.value <==>
      x in acc && forall d :: d in rest ==> x in GenesOf(d, SymbolColumn)
    decreases |rest|
  {
    if rest == [] then Ok(acc)
    else if SymbolColumn !in rest[0].rowData then Err(MissingKey(SymbolColumn))
    else IntersectLater(acc * GenesOf(rest[0], SymbolColumn), rest[1..])
  }

  /** The genes common to all datasets. */
  function CommonGenes(sces: seq<Dataset>, symbol: string): (r: Result<set<string>>)
    ensures r.Ok? <==>
      && |sces| > 0
      && symbol in sces[0].rowData
      && forall i :: 1 <= i < |sces| ==> SymbolColumn in sces[i].rowData
    ensures r.Ok? ==> forall x :: x in r.value <==>
      && x in GenesOf(sces[0], symbol)
      && forall i :: 1 <= i < |sces| ==> x in GenesOf(sces[i], SymbolColumn)
    ensures r.Err? ==> r.error == (if |sces| == 0 then NoDatasets
                                   else if symbol !in sces[0].rowData then MissingKey(symbol)
                                   else MissingKey(SymbolColumn))
  {
    if |sces| == 0 then Err(NoDatasets)
    else if symbol !in sces[0].rowData then Err(MissingKey(symbol))
    else
      var r := IntersectLater(GenesOf(sces[0], symbol), sces[1..]);
      assert forall i :: 1 <= i < |sces| ==> sces[i] in sces[1..] by {
        forall i | 1 <= i < |sces| ensures sces[i] in sces[1..] {
          assert sces[1..][i - 1] == sces[i];
        }
      }
      r
  }

  /** Every common gene is an uppercase string. */
  lemma CommonGenesAreUppercase(sces: seq<Dataset>, symbol: string)
    requires CommonGenes(sces, symbol).Ok?
    ensures forall x :: x in CommonGenes(sces, symbol).value ==> Upper(x) == x
  {
    forall x | x in CommonGenes(sces, symbol).value
      ensures Upper(x) == x
    {
      assert x in GenesOf(sces[0], symbol);
      var g :| g in sces[0].rowData[symbol] && Upper(g) == x;
      UpperIdempotent(g);
    }
  }

  /** Reordering the datasets after the first does not change the result. */
  lemma {:induction false} CommonGenesLaterOrderIrrelevant(sces: seq<Dataset>, sces': seq<Dataset>, symbol: string)
    requires |sces| > 0 && |sces'| > 0 && sces[0] == sces'[0]
    requires multiset(sces[1..]) == multiset(sces'[1..])
    ensures CommonGenes(sces, symbol) == CommonGenes(sces', symbol)
  {
    var a, b := CommonGenes(sces, symbol), CommonGenes(sces', symbol);
    assert forall d :: d in sces[1..] <==> d in sces'[1..] by {
      forall d ensures d in sces[1..] <==> d in sces'[1..] {
        assert d in sces[1..] <==> d in multiset(sces[1..]);
        assert d in sces'[1..] <==> d in multiset(sces'[1..]);
      }
    }
    assert forall i :: 1 <= i < |sces| ==> sces[i] in sces'[1..] by {
      forall i | 1 <= i < |sces| ensures sces[i] in sces'[1..] {
        assert sces[1..][i - 1] == sces[i];
      }
    }
    assert forall i :: 1 <= i < |sces'| ==> sces'[i] in sces[1..] by {
      forall i | 1 <= i < |sces'| ensures sces'[i] in sces[1..] {
        assert sces'[1..][i - 1] == sces'[i];
      }
    }
    assert a.Ok? <==> b.Ok?;
    if a.Ok? {
      forall x ensures x in a.value <==> x in b.value {
        CommonGeneCarriesOver(sces, sces', symbol, x);
        CommonGeneCarriesOver(sces', sces, symbol, x);
      }
      assert a.value == b.value;
    }
  }

  /** A gene common to one list of datasets is common to another with the
      same first dataset whose later datasets all occur later in the first. */
  lemma CommonGeneCarriesOver(sces: seq<Dataset>, sces': seq<Dataset>, symbol: string, x: string)
    requires |sces| > 0 && |sces'| > 0 && sces[0] == sces'[0]
    requires forall j :: 1 <= j < |sces'| ==> sces'[j] in sces[1..]
    ensures var a, b := CommonGenes(sces, symbol), CommonGenes(sces', symbol);
            a.Ok? && b.Ok? && x in a.value ==> x in b.value
  {
    var a, b := CommonGenes(sces, symbol), CommonGenes(sces', symbol);
    if a.Ok? && b.Ok? && x in a.value {
      forall j | 1 <= j < |sces'| ensures x in GenesOf(sces'[j], SymbolColumn) {
        var i :| 0 <= i < |sces[1..]| && sces[1..][i] == sces'[j];
        assert sces[i + 1] == sces'[j];
      }
    }
  }

  /** Reading the first dataset through `symbol` rather than "Symbol" makes
      the first position special: with symbol column "gene", swapping two
      datasets changes the common genes from {"A"} to {"B"}. */
  lemma CommonGenesFirstDatasetIsSpecial()
    ensures var d1 := Dataset(map["gene" := ["a"], "Symbol" := ["A", "B"]], map[], map[]);
            var d2 := Dataset(map["gene" := ["b"], "Symbol" := ["A", "B"]], map[], map[]);
            && CommonGenes([d1, d2], "gene") == Ok({"A"})
            && CommonGenes([d2, d1], "gene") == Ok({"B"})
  {
    var d1 := Dataset(map["gene" := ["a"], "Symbol" := ["A", "B"]], map[], map[]);
    var d2 := Dataset(map["gene" := ["b"], "Symbol" := ["A", "B"]], map[], map[]);
    SwapExampleGenes(d1, d2);
    CommonGenesOfPair(d1, d2, "gene");
    CommonGenesOfPair(d2, d1, "gene");
    assert {"A"} * {"A", "B"} == {"A"};
    assert {"B"} * {"A", "B"} == {"B"};
  }

  /** Two datasets have in common the first one's genes that the second
      one lists under "Symbol". */
  lemma CommonGenesOfPair(a: Dataset, b: Dataset, symbol: string)
    requires symbol in a.rowData && SymbolColumn in b.rowData
    ensures CommonGenes([a, b], symbol) == Ok(GenesOf(a, symbol) * GenesOf(b, SymbolColumn))
  {
    var r := CommonGenes([a, b], symbol);
    assert r.value == GenesOf(a, symbol) * GenesOf(b, SymbolColumn) by {
      assert forall x :: x in r.value <==> x in GenesOf(a, symbol) && x in GenesOf(b, SymbolColumn);
    }
  }

  lemma SwapExampleGenes(d1: Dataset, d2: Dataset)
    requires d1 == Dataset(map["gene" := ["a"], "Symbol" := ["A", "B"]], map[], map[])
    requires d2 == Dataset(map["gene" := ["b"], "Symbol" := ["A", "B"]], map[], map[])
    ensures GenesOf(d1, "gene") == {"A"} && GenesOf(d2, "gene") == {"B"}
    ensures GenesOf(d1, SymbolColumn) == {"A", "B"} && GenesOf(d2, SymbolColumn) == {"A", "B"}
  {
    assert Upper("a") == "A" && Upper("b") == "B" && Upper("A") == "A" && Upper("B") == "B";
  }

  /** Two datasets with genes {A, B, C} and {B, C, D} have {B, C} in common. */
  lemma CommonGenesTwoDatasetExample()
    ensures var d1 := Dataset(map["Symbol" := ["A", "B", "C"]], map[], map[]);
            var d2 := Dataset(map["Symbol" := ["B", "C", "D"]], map[], map[]);
            CommonGenes([d1, d2], "Symbol") == Ok({"B", "C"})
  {
    var d1 := Dataset(map["Symbol" := ["A", "B", "C"]], map[], map[]);
    var d2 := Dataset(map["Symbol" := ["B", "C", "D"]], map[], map[]);
    ExampleGenes();
    CommonGenesOfPair(d1, d2, "Symbol");
    assert {"A", "B", "C"} * {"B", "C", "D"} == {"B", "C"};
  }

  lemma ExampleGenes()
    ensures GenesOf(Dataset(map["Symbol" := ["A", "B", "C"]], map[], map[]), SymbolColumn) == {"A", "B", "C"}
    ensures GenesOf(Dataset(map["Symbol" := ["B", "C", "D"]], map[], map[]), SymbolColumn) == {"B", "C", "D"}
  {
    UppercaseSymbols(["A", "B", "C"]);
    UppercaseSymbols(["B", "C", "D"]);
  }

  /** Symbols that are already uppercase are their own gene set. */
  lemma UppercaseSymbols(symbols: seq<string>)
    requires forall i :: 0 <= i < |symbols| ==> Upper(symbols[i]) == symbols[i]
    ensures GenesOf(Dataset(map[SymbolColumn := symbols], map[], map[]), SymbolColumn) == set g | g in symbols
  {
  }

  /** Adding another copy of a later dataset changes nothing: intersection
      is idempotent. */
  lemma CommonGenesRepeatLater(sces: seq<Dataset>, symbol: string, i: nat)
    requires 1 <= i < |sces|
    ensures CommonGenes(sces + [sces[i]], symbol) == CommonGenes(sces, symbol)
  {
    var ext := sces + [sces[i]];
    assert forall j :: 0 <= j < |sces| ==> ext[j] == sces[j];
    var a, b := CommonGenes(ext, symbol), CommonGenes(sces, symbol);
    assert a.Ok? <==> b.Ok?;
    if a.Ok? {
      assert forall x :: x in a.value <==> x in b.value;
      assert a.value == b.value;
    }
  }
}

=== FILE: labels.dfy ===
/** Mapping the fit's cell-type codes back to cell-type names (lines
    130-136 of `run_em`): sort the distinct codes, zip them with the marker
    reference's cell types into a dictionary, and look every cell's code
    up in it. The independent description is by rank: a code's label is
    the cell type at the position given by the number of distinct codes
    smaller than it. */
module Labels {
  import opened Failures
  import opened Seqs

  /** Insert a code into an increasing sequence, keeping it increasing and
      free of repeats. */
  function Insert(x: int, s: seq<int>): (r: seq<int>)
    requires StrictlyIncreasing(s)
    ensures StrictlyIncreasing(r)
    ensures forall c :: c in r <==> c == x || c in s
    decreases |s|
  {
    if s == [] then [x]
    else if x == s[0] then s
    else if x < s[0] then [x] + s
    else
      var rest := Insert(x, s[1..]);
      HeadBelowTail(s);
      var r := [s[0]] + rest;
      assert forall j :: 1 <= j < |r| ==> r[j] == rest[j - 1] && r[j] in rest;
      r
  }

  /** The first entry of an increasing sequence is below all the others. */
  lemma HeadBelowTail(s: seq<int>)
    requires StrictlyIncreasing(s) && s != []
    ensures forall c :: c in s[1..] ==> s[0] < c
  {
    forall c | c in s[1..] ensures s[0] < c {
      var i :| 0 <= i < |s[1..]| && s[1..][i] == c;
      assert s[i + 1] == c;
    }
  }

  /** `sorted(list(set(codes)))`: the distinct codes in increasing order. */
  function SortedCodes(codes: seq<int>): (r: seq<int>)
    ensures StrictlyIncreasing(r)
    ensures forall c :: c in r <==> c in codes
    decreases |codes|
  {
    if codes == [] then []
    else Insert(codes[|codes| - 1], SortedCodes(codes[..|codes| - 1]))
  }

  /** An increasing sequence is determined by its elements, so the sorted
      codes are the one increasing listing of the distinct codes. */
  lemma {:induction false} IncreasingUnique(a: seq<int>, b: seq<int>)
    requires StrictlyIncreasing(a) && StrictlyIncreasing(b)
    requires forall c :: c in a <==> c in b
    ensures a == b
    decreases |a|
  {
    assert a != [] ==> a[0] in a && a[0] in b;
    assert b != [] ==> b[0] in b && b[0] in a;
    if a != [] && b != [] {
      assert a[0] == b[0] by {
        assert a[0] in b && b[0] in a;
      }
      forall c ensures c in a[1..] <==> c in b[1..] {
        if c in a[1..] {
          assert c in b && c > a[0];
        }
        if c in b[1..] {
          assert c in a && c > b[0];
        }
      }
      IncreasingUnique(a[1..], b[1..]);
      assert a == [a[0]] + a[1..] && b == [b[0]] + b[1..];
    }
  }

  /** The sorted codes are the one increasing listing of the distinct codes. */
  lemma SortedCodesUnique(codes: seq<int>, s: seq<int>)
    requires StrictlyIncreasing(s)
    requires forall c :: c in s <==> c in codes
    ensures s == SortedCodes(codes)
  {
    IncreasingUnique(s, SortedCodes(codes));
  }

  /** `dict(pairs)`: one entry per key that occurs among the pairs. */
  function Table(pairs: seq<(int, string)>): (m: map<int, string>)
    ensures forall k :: k in m <==> exists i :: 0 <= i < |pairs| && pairs[i].0 == k
    decreases |pairs|
  {
    if pairs == [] then map[]
    else
      var n := |pairs| - 1;
      var t := Table(pairs[..n]);
      assert forall i :: 0 <= i < n ==> pairs[..n][i] == pairs[i];
      t[pairs[n].0 := pairs[n].1]
  }

  /** In `dict(pairs)` a later pair overwrites an earlier one with the same
      key, so a pair whose key does not recur gives that key's entry. */
  lemma {:induction false} TableLastWins(pairs: seq<(int, string)>, i: nat)
    requires i < |pairs|
    requires forall j :: i < j < |pairs| ==> pairs[j].0 != pairs[i].0
    ensures pairs[i].0 in Table(pairs)
    ensures Table(pairs)[pairs[i].0] == pairs[i].1
    decreases |pairs|
  {
    var n := |pairs| - 1;
    if i < n {
      var prefix := pairs[..n];
      assert prefix[i] == pairs[i];
      assert forall j :: i < j < |prefix| ==> prefix[j].0 != prefix[i].0 by {
        forall j | i < j < |prefix| ensures prefix[j].0 != prefix[i].0 {
          assert prefix[j] == pairs[j];
        }
      }
      TableLastWins(prefix, i);
      assert pairs[n].0 != pairs[i].0;
    }
  }

  /** Every entry of `dict(pairs)` is one of the pairs. */
  lemma {:induction false} TableEntriesArePairs(pairs: seq<(int, string)>)
    ensures forall k :: k in Table(pairs) ==> exists i :: 0 <= i < |pairs| && pairs[i] == (k, Table(pairs)[k])
    decreases |pairs|
  {
    if pairs != [] {
      var n := |pairs| - 1;
      TableEntriesArePairs(pairs[..n]);
      forall k | k in Table(pairs)
        ensures exists i :: 0 <= i < |pairs| && pairs[i] == (k, Table(pairs)[k])
      {
        if k != pairs[n].0 {
          var i :| 0 <= i < n && pairs[..n][i] == (k, Table(pairs[..n])[k]);
          assert pairs[i] == pairs[..n][i];
        }
      }
    }
  }

  /** `dict(zip(sorted(list(set(codes))), celltypes))` */
  function Conversion(codes: seq<int>, celltypes: seq<string>): (r: map<int, string>)
    ensures forall c :: c in r ==> c in codes && r[c] in celltypes
  {
    var pairs := Zip(SortedCodes(codes), celltypes);
    TableEntriesArePairs(pairs);
    Table(pairs)
  }

  /** The loop of lines 134-135: look each code up in order; the first code
      without an entry raises KeyError. */
  function Translate(assignments: seq<int>, conversion: map<int, string>): (r: Result<seq<string>>)
    ensures r.Ok? <==> forall i :: 0 <= i < |assignments| ==> assignments[i] in conversion
    ensures r.Ok? ==> |r.value| == |assignments|
    ensures r.Ok? ==> forall i :: 0 <= i < |assignments| ==> r.value[i] == conversion[assignments[i]]
    ensures r.Err? ==> exists i :: && 0 <= i < |assignments|
                                   && assignments[i] !in conversion
                                   && (forall j :: 0 <= j < i ==> assignments[j] in conversion)
                                   && r.error == UnknownCode(assignments[i])
    decreases |assignments|
  {
    if assignments == [] then Ok([])
    else if assignments[0] !in conversion then Err(UnknownCode(assignments[0]))
    else
      var rest :- Translate(assignments[1..], conversion);
      Ok([conversion[assignments[0]]] + rest)
  }

  /** The rank of a code: how many distinct codes are smaller than it. */
  function Rank(c: int, codes: seq<int>): nat {
    |set x | x in codes && x < c|
  }

  /** An increasing sequence has as many distinct elements as entries. */
  lemma {:induction false} IncreasingCardinality(s: seq<int>)
    requires StrictlyIncreasing(s)
    ensures |set x | x in s| == |s|
    decreases |s|
  {
    if s != [] {
      var n := |s| - 1;
      IncreasingCardinality(s[..n]);
      assert (set x | x in s) == (set x | x in s[..n]) + {s[n]} by {
        assert s == s[..n] + [s[n]];
      }
      assert s[n] !in (set x | x in s[..n]);
    }
  }

  /** In an increasing sequence, the element at position k has exactly k
      smaller elements. */
  lemma RankInIncreasing(s: seq<int>, k: nat)
    requires StrictlyIncreasing(s) && k < |s|
    ensures Rank(s[k], s) == k
  {
    assert (set x | x in s && x < s[k]) == (set x | x in s[..k]) by {
      forall x | x in s && x < s[k] ensures x in s[..k] {
        var i :| 0 <= i < |s| && s[i] == x;
        assert i < k;
      }
    }
    IncreasingCardinality(s[..k]);
  }

  /** A code's rank is its position among the sorted distinct codes. */
  lemma RankIsSortedPosition(codes: seq<int>, c: int)
    requires c in codes
    ensures Rank(c, codes) < |SortedCodes(codes)|
    ensures SortedCodes(codes)[Rank(c, codes)] == c
  {
    var s := SortedCodes(codes);
    var k :| 0 <= k < |s| && s[k] == c;
    assert (set x | x in codes && x < c) == (set x | x in s && x < c);
    RankInIncreasing(s, k);
  }

  /** What the conversion table says about each code: it has an entry
      exactly when the code's rank is below the number of cell types, and
      that entry is the cell type at the rank. */
  lemma ConversionByRank(codes: seq<int>, celltypes: seq<string>, c: int)
    requires c in codes
    ensures c in Conversion(codes, celltypes) <==> Rank(c, codes) < |celltypes|
    ensures c in Conversion(codes, celltypes) ==> Conversion(codes, celltypes)[c] == celltypes[Rank(c, codes)]
  {
    var s := SortedCodes(codes);
    var pairs := Zip(s, celltypes);
    var k := Rank(c, codes);
    RankIsSortedPosition(codes, c);
    if c in Conversion(codes, celltypes) {
      var i :| 0 <= i < |pairs| && pairs[i].0 == c;
      assert i == k;
    }
    if k < |celltypes| {
      assert pairs[k].0 == c;
      TableLastWins(pairs, k);
    }
  }

  predicate RankLabels(codes: seq<int>, celltypes: seq<string>, labels: seq<string>) {
    && |labels| == |codes|
    && forall i :: 0 <= i < |codes| ==> Rank(codes[i], codes) < |celltypes| && labels[i] == celltypes[Rank(codes[i], codes)]
  }

  /** Remapping of lines 132-136: the labels keep the codes' order and
      length, each label is the cell type at its code's rank, and the
      remap fails, at the first offending cell, exactly when some code's
      rank reaches the number of cell types. */
  function Remap(codes: seq<int>, celltypes: seq<string>): (r: Result<seq<string>>)
    ensures r.Ok? <==> forall i :: 0 <= i < |codes| ==> Rank(codes[i], codes) < |celltypes|
    ensures r.Ok? ==> |r.value| == |codes|
    ensures r.Ok? ==> RankLabels(codes, celltypes, r.value)
    ensures r.Ok? ==> forall i :: 0 <= i < |codes| ==> r.value[i] in celltypes
    ensures r.Err? ==> exists i :: && 0 <= i < |codes|
                                   && Rank(codes[i], codes) >= |celltypes|
                                   && (forall j :: 0 <= j < i ==> Rank(codes[j], codes) < |celltypes|)
                                   && r.error == UnknownCode(codes[i])
  {
    var conversion := Conversion(codes, celltypes);
    assert forall i :: 0 <= i < |codes| ==>
             && (codes[i] in conversion <==> Rank(codes[i], codes) < |celltypes|)
             && (codes[i] in conversion ==> conversion[codes[i]] == celltypes[Rank(codes[i], codes)]) by {
      forall i | 0 <= i < |codes|
        ensures && (codes[i] in conversion <==> Rank(codes[i], codes) < |celltypes|)
                && (codes[i] in conversion ==> conversion[codes[i]] == celltypes[Rank(codes[i], codes)])
      {
        ConversionByRank(codes, celltypes, codes[i]);
      }
    }
    Translate(codes, conversion)
  }

  /** Ranks order the codes: a smaller code has a smaller rank, so labels
      follow the cell-type list in the order of the codes. */
  lemma RankOrdersCodes(codes: seq<int>, c: int, d: int)
    requires c in codes && d in codes
    ensures c < d <==> Rank(c, codes) < Rank(d, codes)
  {
    RankIsSortedPosition(codes, c);
    RankIsSortedPosition(codes, d);
  }

  /** With no more distinct codes than cell types, remapping never fails. */
  lemma RemapSucceedsWhenTypesSuffice(codes: seq<int>, celltypes: seq<string>)
    requires |set x | x in codes| <= |celltypes|
    ensures Remap(codes, celltypes).Ok?
  {
    var s := SortedCodes(codes);
    IncreasingCardinality(s);
    assert (set x | x in s) == (set x | x in codes);
    forall i | 0 <= i < |codes| ensures Rank(codes[i], codes) < |celltypes| {
      RankIsSortedPosition(codes, codes[i]);
    }
  }

  /** With exactly as many distinct codes as cell types, every cell type
      is some cell's label: the `k`-th smallest code is labelled with the
      `k`-th cell type. Together with `RemapSeparatesCodes` this makes the
      remap a bijection from distinct codes to cell types. */
  lemma RemapCoversTypes(codes: seq<int>, celltypes: seq<string>, k: nat)
    requires |set x | x in codes| == |celltypes|
    requires k < |celltypes|
    ensures Remap(codes, celltypes).Ok?
    ensures exists i :: 0 <= i < |codes| && Remap(codes, celltypes).value[i] == celltypes[k]
  {
    RemapSucceedsWhenTypesSuffice(codes, celltypes);
    var c := CodeOfRank(codes, k);
    var i :| 0 <= i < |codes| && codes[i] == c;
    assert Remap(codes, celltypes).value[i] == celltypes[k];
  }

  /** Every position among the sorted distinct codes is some code's rank. */
  lemma CodeOfRank(codes: seq<int>, k: nat) returns (c: int)
    requires k < |set x | x in codes|
    ensures c in codes && Rank(c, codes) == k
  {
    var s := SortedCodes(codes);
    IncreasingCardinality(s);
    assert (set x | x in s) == (set x | x in codes);
    c := s[k];
    RankIsSortedPosition(codes, c);
    IncreasingPositionUnique(s, Rank(c, codes), k);
  }

  /** In a strictly increasing sequence equal entries sit at one position. */
  lemma IncreasingPositionUnique(s: seq<int>, n: nat, k: nat)
    requires StrictlyIncreasing(s)
    requires n < |s| && k < |s| && s[n] == s[k]
    ensures n == k
  {
  }

  /** With distinct cell-type names, two cells get the same label exactly
      when they have the same code. */
  lemma RemapSeparatesCodes(codes: seq<int>, celltypes: seq<string>, i: nat, j: nat)
    requires forall a, b :: 0 <= a < b < |celltypes| ==> celltypes[a] != celltypes[b]
    requires i < |codes| && j < |codes|
    ensures var r := Remap(codes, celltypes);
            r.Ok? ==> (r.value[i] == r.value[j] <==> codes[i] == codes[j])
  {
    RankOrdersCodes(codes, codes[i], codes[j]);
    RankOrdersCodes(codes, codes[j], codes[i]);
  }

  lemma ExampleRanks()
    ensures Rank(1, [2, 1, 2, 1]) == 0
    ensures Rank(2, [2, 1, 2, 1]) == 1
  {
    var codes := [2, 1, 2, 1];
    assert (set x | x in codes && x < 1) == {} by {
      forall x | x in codes ensures x >= 1 { }
    }
    assert (set x | x in codes && x < 2) == {1} by {
      assert 1 == codes[1];
      forall x | x in codes && x < 2 ensures x == 1 { }
    }
  }

  /** The rank description determines the remap: labels that are the cell
      types at their codes' ranks are what remapping returns. */
  lemma RemapFromRanks(codes: seq<int>, celltypes: seq<string>, labels: seq<string>)
    requires RankLabels(codes, celltypes, labels)
    ensures Remap(codes, celltypes) == Ok(labels)
  {
    var r := Remap(codes, celltypes);
    assert r.Ok?;
    assert r.value == labels;
  }

  lemma RemapExample()
    ensures Remap([2, 1, 2, 1], ["Tcell", "Bcell"]) == Ok(["Bcell", "Tcell", "Bcell", "Tcell"])
  {
    ExampleRanks();
    RemapFromRanks([2, 1, 2, 1], ["Tcell", "Bcell"], ["Bcell", "Tcell", "Bcell", "Tcell"]);
  }
}

=== FILE: loader.dfy ===
/** `CellAssign.load`: read one dataset's counts, keep the rows of the
    common genes, then run the cell filter, the transcript filter and the
    final pass that drops all-zero rows together with their barcodes.
    Every step is modelled as the code does it, including the transcript
    filter's test of the stale loop variable `row` and the truncating
    `zip` calls. */
module Loader {
  import opened Failures
  import opened Seqs
  import opened Matrices
  import opened Symbols
  import opened Datasets
  import opened GeneSets

  /** The column-metadata column holding cell barcodes. */
  const BarcodeColumn := "Barcode"

  /** The boolean row mask of line 49: is each row's gene a common gene? */
  function GeneMask(genes: seq<string>, common: set<string>): (keep: seq<bool>)
    ensures |keep| == |genes|
    ensures forall i :: 0 <= i < |genes| ==> keep[i] == (genes[i] in common)
  {
    seq(|genes|, i requires 0 <= i < |genes| => genes[i] in common)
  }

  /** The row subset: keeps the rows at exactly the positions whose gene
      is common, in their original order, duplicate symbols included; the
      cell count (width) is unchanged even when no row survives. */
  function SubsetRows(genes: seq<string>, m: Matrix, common: set<string>): (r: Matrix)
    requires |genes| == m.height
    ensures r.width == m.width
    ensures var idx := Positions(GeneMask(genes, common));
            && r.height == |idx|
            && forall k :: 0 <= k < |idx| ==> r.rows[k] == m.rows[idx[k]]
  {
    var rows := Select(m.rows, GeneMask(genes, common));
    Grid(|rows|, m.width, rows)
  }

  /** The distinct common genes of a dataset: `set(genes) & set(common)`. */
  function DistinctCommon(genes: seq<string>, common: set<string>): (r: set<string>)
    ensures forall g :: g in r <==> g in common && exists i :: 0 <= i < |genes| && genes[i] == g
    ensures |r| <= |genes|
  {
    var present := set g | g in genes;
    ElementsAtMostLength(genes);
    SubsetNoLarger(present * common, present);
    present * common
  }

  /** There are no more distinct common genes than rows kept by the subset:
      each distinct common gene owns at least one kept row. */
  lemma DistinctCommonAtMostRows(genes: seq<string>, m: Matrix, common: set<string>)
    requires |genes| == m.height
    ensures |DistinctCommon(genes, common)| <= SubsetRows(genes, m, common).height
  {
    var kept := Select(genes, GeneMask(genes, common));
    assert DistinctCommon(genes, common) == set x | x in kept by {
      forall x | x in DistinctCommon(genes, common) ensures x in kept {
        CommonGeneIsKept(genes, common, x);
      }
      forall x | x in kept ensures x in DistinctCommon(genes, common) {
        KeptGeneIsCommon(genes, common, x);
      }
    }
    ElementsAtMostLength(kept);
  }

  lemma CommonGeneIsKept(genes: seq<string>, common: set<string>, x: string)
    requires x in DistinctCommon(genes, common)
    ensures x in Select(genes, GeneMask(genes, common))
  {
    var keep := GeneMask(genes, common);
    var idx := Positions(keep);
    var i :| 0 <= i < |genes| && genes[i] == x;
    assert keep[i];
    var k :| 0 <= k < |idx| && idx[k] == i;
  }

  lemma KeptGeneIsCommon(genes: seq<string>, common: set<string>, x: string)
    requires x in Select(genes, GeneMask(genes, common))
    ensures x in DistinctCommon(genes, common)
  {
    var keep := GeneMask(genes, common);
    var kept := Select(genes, keep);
    var k :| 0 <= k < |kept| && kept[k] == x;
  }

  /** State after the cell filter: the matrix and the loop variable `row`
      as the loop leaves it (the last cell iterated, kept or not), `None`
      when the loop never ran. */
  datatype CellStage = CellStage(matrix: Matrix, lastCell: Option<seq<nat>>)

  /** The cell filter of lines 53-58 on a cells x genes matrix: keeps, in
      order, exactly the cells that contain a zero count. */
  function CellFilter(cells: Matrix): (r: CellStage)
    ensures forall c :: c in r.matrix.rows <==> c in cells.rows && ContainsZero(c)
    ensures var idx := Positions(Mask(ContainsZero, cells.rows));
            && r.matrix.height == |idx|
            && forall k :: 0 <= k < |idx| ==> r.matrix.rows[k] == cells.rows[idx[k]]
    ensures r.matrix.width == if r.matrix.rows == [] then 0 else cells.width
    ensures r.lastCell.Some? <==> cells.height > 0
    ensures r.lastCell.Some? ==> r.lastCell.value == cells.rows[cells.height - 1]
  {
    var kept := Filter(HasZero, cells.rows);
    assert Mask(HasZero, cells.rows) == Mask(ContainsZero, cells.rows) by {
      forall i | 0 <= i < cells.height {
        HasZeroMeansZeroEntry(cells.rows[i]);
      }
    }
    assert forall c :: c in kept <==> c in cells.rows && ContainsZero(c) by {
      forall c ensures HasZero(c) <==> ContainsZero(c) {
        HasZeroMeansZeroEntry(c);
      }
    }
    var last := if cells.height == 0 then None else Some(cells.rows[cells.height - 1]);
    CellStage(FromRows(kept, cells.width), last)
  }

  /** The transcript filter of lines 61-68 on the genes x cells matrix `mt`.
      `zip` against the set of distinct common genes bounds the iterations
      by that set's size; each iteration tests the stale `row`, never the
      column, and reading `row` or `_matrix` before assignment fails. */
  function TranscriptFilter(distinctGenes: nat, mt: Matrix, lastCell: Option<seq<nat>>,
                            cellFilterRan: bool): (r: Result<Matrix>)
    ensures r.Ok? <==> cellFilterRan && (Min(distinctGenes, mt.height) > 0 ==> lastCell.Some?)
    ensures r.Err? ==> r.error == if Min(distinctGenes, mt.height) > 0 && lastCell.None?
                                  then UnboundLocal("row") else UnboundLocal("_matrix")
    ensures r.Ok? ==>
              r.value.rows == (if Min(distinctGenes, mt.height) > 0 && ContainsZero(lastCell.value)
                               then mt.rows[..Min(distinctGenes, mt.height)]
                               else [])
    ensures r.Ok? ==> r.value.height <= distinctGenes
    ensures r.Ok? && r.value.rows != [] ==> r.value.width == mt.width
  {
    var cols := mt.rows[..Min(distinctGenes, mt.height)];
    if cols != [] && lastCell.None? then Err(UnboundLocal("row"))
    else if !cellFilterRan then Err(UnboundLocal("_matrix"))
    else if cols == [] then Ok(FromRows([], mt.width))
    else
      var row := lastCell.value;
      var kept := Filter((col: seq<nat>) => HasZero(row), cols);
      HasZeroMeansZeroEntry(row);
      if HasZero(row) then
        FilterKeepsPassing((col: seq<nat>) => HasZero(row), cols);
        Ok(FromRows(kept, mt.width))
      else
        FilterDropsFailing((col: seq<nat>) => HasZero(row), cols);
        Ok(FromRows(kept, mt.width))
  }

  /** A row paired with its barcode survives the final pass when the
      count-based test says it is not all zero. */
  predicate LivePair(p: (string, seq<nat>)) {
    NotAllZero(p.1)
  }

  /** What the final pass returns: the kept rows and their barcodes. */
  datatype Survivors = Survivors(rows: seq<seq<nat>>, barcodes: seq<string>)

  /** The final pass of lines 69-76: walk `zip(barcodes, rows)` and keep
      each live row with the barcode at the same position. */
  function FinalPass(barcodes: seq<string>, rows: seq<seq<nat>>): (r: Survivors)
    ensures |r.rows| == |r.barcodes| <= Min(|barcodes|, |rows|)
    ensures var idx := Positions(Mask(Live, rows[..Min(|barcodes|, |rows|)]));
            && |idx| == |r.rows|
            && forall k :: 0 <= k < |idx| ==> r.rows[k] == rows[idx[k]] && r.barcodes[k] == barcodes[idx[k]]
    ensures forall k :: 0 <= k < |r.rows| ==> Live(r.rows[k]) && r.rows[k] in rows
  {
    var pairs := Zip(barcodes, rows);
    var kept := Filter(LivePair, pairs);
    assert Mask(LivePair, pairs) == Mask(Live, rows[..Min(|barcodes|, |rows|)]) by {
      forall i | 0 <= i < |pairs| {
        NotAllZeroMeansLive(pairs[i].1);
      }
    }
    Survivors(Seconds(kept), Firsts(kept))
  }

  /** Running the final pass on its own output changes nothing. */
  lemma FinalPassIdempotent(barcodes: seq<string>, rows: seq<seq<nat>>)
    ensures var r := FinalPass(barcodes, rows);
            FinalPass(r.barcodes, r.rows) == r
  {
    var kept := Filter(LivePair, Zip(barcodes, rows));
    ZipOfUnzip(kept);
    FilterIdempotent(LivePair, Zip(barcodes, rows));
  }

  /** The cells x genes matrix the filters start from (line 52). */
  function CellsOf(genes: seq<string>, m: Matrix, common: set<string>): (r: Matrix)
    requires |genes| == m.height
    ensures r.height == m.width
    ensures var idx := Positions(GeneMask(genes, common));
            && r.width == |idx|
            && forall k :: 0 <= k < |idx| ==> Column(r, k) == m.rows[idx[k]]
  {
    var kept := SubsetRows(genes, m, common);
    ColumnsOfTranspose(kept);
    Transpose(kept)
  }

  /** Lines 69-80: transpose the filtered matrix, run the final pass over
      its rows, and transpose the survivors back. Every column of the
      result is a surviving row, so it has a nonzero entry and its own
      barcode; an empty result is numpy's flat empty array. */
  function Finish(barcodes: seq<string>, filtered: Matrix): (r: Loaded)
    ensures r.matrix.width == |r.barcodes| <= |barcodes|
    ensures r.matrix.height == 0 <==> r.matrix.width == 0
    ensures forall j :: 0 <= j < r.matrix.width ==> Live(Column(r.matrix, j))
  {
    var mo := Transpose(filtered);
    var s := FinalPass(barcodes, mo.rows);
    FinalPassFits(barcodes, mo);
    var survivors := FromRows(s.rows, mo.width);
    ColumnsOfTranspose(survivors);
    Loaded(Transpose(survivors), s.barcodes)
  }

  /** The rows the final pass keeps are rows of the matrix, so they share
      its width; a kept row is live, so that width is not zero. */
  lemma FinalPassFits(barcodes: seq<string>, mo: Matrix)
    ensures forall r :: r in FinalPass(barcodes, mo.rows).rows ==> |r| == mo.width && Live(r)
    ensures FinalPass(barcodes, mo.rows).rows != [] ==> mo.width > 0
  {
    var s := FinalPass(barcodes, mo.rows);
    forall r | r in s.rows ensures |r| == mo.width && Live(r) {
      var k :| 0 <= k < |s.rows| && s.rows[k] == r;
      assert s.rows[k] in mo.rows;
    }
    if s.rows != [] {
      assert Live(s.rows[0]);
    }
  }

  /** The variable the transcript filter finds unbound when it runs without
      the cell filter: with a common gene the loop of line 63 runs and line
      64 reads `row`; with none, line 65 is never reached and line 68 reads
      `_matrix`. */
  function UnboundVariable(genes: seq<string>, common: set<string>): Error {
    if DistinctCommon(genes, common) != {} then UnboundLocal("row") else UnboundLocal("_matrix")
  }

  /** The matrix the transcript filter hands on (lines 53-68), or the
      unbound-variable failure of line 64 or 68. */
  function Filtered(genes: seq<string>, m: Matrix, common: set<string>,
                    filterCells: bool, filterTranscripts: bool): (r: Result<Matrix>)
    requires |genes| == m.height
    ensures r.Ok? <==> (filterTranscripts ==> filterCells)
    ensures r.Err? ==> r.error == UnboundVariable(genes, common)
    ensures !filterTranscripts ==>
              r == Ok(if filterCells then CellFilter(CellsOf(genes, m, common)).matrix
                      else CellsOf(genes, m, common))
  {
    var cells := CellsOf(genes, m, common);
    DistinctCommonAtMostRows(genes, m, common);
    var stage := if filterCells then CellFilter(cells) else CellStage(cells, None);
    if filterTranscripts then
      assert filterCells && stage.matrix.width > 0 ==> stage.lastCell.Some? by {
        if filterCells && stage.matrix.width > 0 {
          assert stage.matrix.rows[0] in cells.rows;
        }
      }
      TranscriptFilter(|DistinctCommon(genes, common)|, Transpose(stage.matrix),
                       stage.lastCell, filterCells)
    else Ok(stage.matrix)
  }

  /** Lines 49-80 once the metadata has been read and the gene count
      checked: subset, transpose, filters, final pass, transpose back. */
  function Pipeline(genes: seq<string>, barcodes: seq<string>, m: Matrix, common: set<string>,
                    filterCells: bool, filterTranscripts: bool): (r: Result<Loaded>)
    requires |genes| == m.height
    ensures r.Ok? <==> (filterTranscripts ==> filterCells)
    ensures r.Err? ==> r.error == UnboundVariable(genes, common)
  {
    var filtered :- Filtered(genes, m, common, filterCells, filterTranscripts);
    Ok(Finish(barcodes, filtered))
  }

  /** `CellAssign.load`. */
  function Load(d: Dataset, assay: string, symbol: string, filterCells: bool,
                filterTranscripts: bool, common: set<string>): (r: Result<Loaded>)
    ensures r.Ok? <==>
      && symbol in d.rowData
      && SymbolColumn in d.rowData
      && BarcodeColumn in d.colData
      && assay in d.assays
      && |d.rowData[SymbolColumn]| == d.assays[assay].height
      && (filterTranscripts ==> filterCells)
    ensures r.Err? ==>
              r.error == (if symbol !in d.rowData then MissingSymbolColumn(symbol)
                          else if SymbolColumn !in d.rowData then MissingKey(SymbolColumn)
                          else if BarcodeColumn !in d.colData then MissingKey(BarcodeColumn)
                          else if assay !in d.assays then MissingKey(assay)
                          else if |d.rowData[SymbolColumn]| != d.assays[assay].height
                          then GeneCountMismatch(|d.rowData[SymbolColumn]|, d.assays[assay].height)
                          else UnboundVariable(UpperAll(d.rowData[SymbolColumn]), common))
    ensures r.Err? && r.error.UnboundLocal? ==> filterTranscripts && !filterCells
    ensures r.Ok? ==> r.value.matrix.width == |r.value.barcodes| <= |d.colData[BarcodeColumn]|
    ensures r.Ok? ==> forall j :: 0 <= j < r.value.matrix.width ==> Live(Column(r.value.matrix, j))
  {
    if symbol !in d.rowData then Err(MissingSymbolColumn(symbol))
    else if SymbolColumn !in d.rowData then Err(MissingKey(SymbolColumn))
    else if BarcodeColumn !in d.colData then Err(MissingKey(BarcodeColumn))
    else if assay !in d.assays then Err(MissingKey(assay))
    else
      var genes := UpperAll(d.rowData[SymbolColumn]);
      var m := d.assays[assay];
      if |genes| != m.height then Err(GeneCountMismatch(|genes|, m.height))
      else Pipeline(genes, d.colData[BarcodeColumn], m, common, filterCells, filterTranscripts)
  }

  /** `f` holds the first `f.height` genes of the cells `z`, transposed. */
  predicate TransposedPrefix(f: Matrix, z: Matrix) {
    && f.width == z.height && f.height <= z.width
    && forall g, c :: 0 <= g < f.height && 0 <= c < f.width ==> f.rows[g][c] == z.rows[c][g]
  }

  /** With both filters on, the transcript filter hands on either nothing
      (the last cell had no zero, or there were no cells) or the first
      |distinct common genes| gene rows of the zero-containing cells. */
  lemma FilteredWithBothFilters(genes: seq<string>, m: Matrix, common: set<string>)
    requires |genes| == m.height
    ensures Filtered(genes, m, common, true, true).Ok?
    ensures var cells := CellsOf(genes, m, common);
            var zc := CellFilter(cells).matrix;
            var f := Filtered(genes, m, common, true, true).value;
            && ((cells.height == 0 || !ContainsZero(cells.rows[cells.height - 1])) ==> f.rows == [])
            && (f.rows != [] ==> f.height == |DistinctCommon(genes, common)| && TransposedPrefix(f, zc))
  {
    var cells := CellsOf(genes, m, common);
    var zc := CellFilter(cells).matrix;
    var mt := Transpose(zc);
    var k := |DistinctCommon(genes, common)|;
    var tf := TranscriptFilter(k, mt, CellFilter(cells).lastCell, true);
    assert Filtered(genes, m, common, true, true) == tf;
    var f := tf.value;
    if f.rows != [] {
      assert zc.rows != [];
      DistinctCommonAtMostRows(genes, m, common);
      KeptTranscriptsArePrefix(k, zc, CellFilter(cells).lastCell);
    }
  }

  /** When the transcript filter keeps anything and there are at least `k`
      gene rows, it keeps the first `k` of them. */
  lemma KeptTranscriptsArePrefix(k: nat, zc: Matrix, lastCell: Option<seq<nat>>)
    requires k <= zc.width
    ensures var tf := TranscriptFilter(k, Transpose(zc), lastCell, true);
            tf.Ok? && tf.value.rows != [] ==> tf.value.height == k && TransposedPrefix(tf.value, zc)
  {
    var mt := Transpose(zc);
    var tf := TranscriptFilter(k, mt, lastCell, true);
    if tf.Ok? && tf.value.rows != [] {
      var f := tf.value;
      assert f.rows == mt.rows[..k] by {
        assert Min(k, mt.height) == k;
      }
      PrefixOfTranspose(f, zc);
    }
  }

  /** A matrix whose rows are the first rows of a transpose transposes a
      prefix of the original's columns. */
  lemma PrefixOfTranspose(f: Matrix, zc: Matrix)
    requires f.height <= zc.width && f.rows == Transpose(zc).rows[..f.height]
    requires f.rows != []
    ensures TransposedPrefix(f, zc)
  {
    var mt := Transpose(zc);
    assert f.width == zc.height by {
      assert f.rows[0] == mt.rows[0];
    }
    forall g, c | 0 <= g < f.height && 0 <= c < f.width
      ensures f.rows[g][c] == zc.rows[c][g]
    {
      assert f.rows[g] == mt.rows[g];
    }
  }

  /** A non-empty result of the final pass keeps the filtered matrix's row
      count; an empty filtered matrix gives an empty result. */
  lemma FinishShape(barcodes: seq<string>, f: Matrix)
    ensures var r := Finish(barcodes, f);
            && (r.matrix.width > 0 ==> r.matrix.height == f.height)
            && (f.rows == [] ==> r.matrix.width == 0 && r.barcodes == [])
  {
    FinalPassFits(barcodes, Transpose(f));
  }

  /** Every column the final pass keeps is a column of the filtered
      matrix, under the barcode at that column's position. */
  lemma FinishKeepsColumns(barcodes: seq<string>, f: Matrix)
    ensures var r := Finish(barcodes, f);
            forall j :: 0 <= j < r.matrix.width ==>
              exists p :: && 0 <= p < f.width && p < |barcodes|
                          && Column(r.matrix, j) == Column(f, p)
                          && r.barcodes[j] == barcodes[p]
  {
    var r := Finish(barcodes, f);
    forall j | 0 <= j < r.matrix.width
      ensures exists p :: && 0 <= p < f.width && p < |barcodes|
                          && Column(r.matrix, j) == Column(f, p)
                          && r.barcodes[j] == barcodes[p]
    {
      FinishColumn(barcodes, f, j);
    }
  }

  /** Output column `j` of the final pass is the filtered column at the
      `j`-th surviving position. */
  lemma FinishColumn(barcodes: seq<string>, f: Matrix, j: nat)
    ensures var r := Finish(barcodes, f);
            j < r.matrix.width ==>
              var p := Positions(Mask(Live, Transpose(f).rows[..Min(|barcodes|, f.width)]))[j];
              && 0 <= p < f.width && p < |barcodes|
              && Column(r.matrix, j) == Column(f, p)
              && r.barcodes[j] == barcodes[p]
  {
    var mo := Transpose(f);
    var s := FinalPass(barcodes, mo.rows);
    ColumnsOfTranspose(FromRows(s.rows, mo.width));
  }

  /** A matrix whose entries transpose a prefix of another's columns has
      as its columns the other's rows cut to that prefix. */
  lemma ColumnsArePrefixes(f: Matrix, z: Matrix)
    requires TransposedPrefix(f, z)
    ensures forall p :: 0 <= p < f.width ==> Column(f, p) == z.rows[p][..f.height]
  {
    forall p | 0 <= p < f.width
      ensures Column(f, p) == z.rows[p][..f.height]
    {
      assert |z.rows[p]| == z.width;
    }
  }

  /** Each column `j` of a loaded matrix is one of the cells `zc`, cut to
      the matrix's gene count, and carries the barcode at that cell's
      position in `zc`. */
  predicate ColumnsAreCells(r: Loaded, zc: seq<seq<nat>>, barcodes: seq<string>) {
    && |r.barcodes| == r.matrix.width
    && forall j :: 0 <= j < r.matrix.width ==>
      exists p :: && 0 <= p < |zc| && p < |barcodes|
                  && r.matrix.height <= |zc[p]|
                  && Column(r.matrix, j) == zc[p][..r.matrix.height]
                  && r.barcodes[j] == barcodes[p]
  }

  /** When the filtered matrix transposes a prefix of the zero-containing
      cells, every surviving column is one of those cells cut to the
      filtered gene count, under the barcode at that cell's position. */
  lemma FinishTakesCellPrefixes(barcodes: seq<string>, f: Matrix, zc: Matrix, r: Loaded)
    requires f.rows != [] ==> TransposedPrefix(f, zc)
    requires r == Finish(barcodes, f)
    ensures ColumnsAreCells(r, zc.rows, barcodes)
  {
    FinishShape(barcodes, f);
    FinishKeepsColumns(barcodes, f);
    if r.matrix.width > 0 {
      assert f.rows != [];
      ColumnsArePrefixes(f, zc);
      forall j | 0 <= j < r.matrix.width
        ensures exists p :: && 0 <= p < |zc.rows| && p < |barcodes|
                            && r.matrix.height <= |zc.rows[p]|
                            && Column(r.matrix, j) == zc.rows[p][..r.matrix.height]
                            && r.barcodes[j] == barcodes[p]
      {
        var p :| && 0 <= p < f.width && p < |barcodes|
                 && Column(r.matrix, j) == Column(f, p)
                 && r.barcodes[j] == barcodes[p];
        assert |zc.rows[p]| == zc.width;
        assert Column(f, p) == zc.rows[p][..f.height];
      }
    }
  }

  /** A successful pipeline is the final pass over the filtered matrix. */
  lemma PipelineIsFinish(genes: seq<string>, barcodes: seq<string>, m: Matrix, common: set<string>,
                         filterCells: bool, filterTranscripts: bool)
    requires |genes| == m.height
    requires filterTranscripts ==> filterCells
    ensures Pipeline(genes, barcodes, m, common, filterCells, filterTranscripts) ==
            Ok(Finish(barcodes, Filtered(genes, m, common, filterCells, filterTranscripts).value))
  {
  }

  /** `load` with the default flags: the result is genes x cells, the
      transpose of the surviving rows. It is empty unless the last cell of
      the subset holds a zero (the stale `row` the transcript filter tests);
      otherwise it has one row per distinct common gene. */
  lemma PipelineWithDefaultFlags(genes: seq<string>, barcodes: seq<string>, m: Matrix, common: set<string>)
    requires |genes| == m.height
    ensures Pipeline(genes, barcodes, m, common, true, true).Ok?
    ensures var cells := CellsOf(genes, m, common);
            var r := Pipeline(genes, barcodes, m, common, true, true).value;
            && r.matrix.height <= |DistinctCommon(genes, common)|
            && (r.matrix.width > 0 ==> r.matrix.height == |DistinctCommon(genes, common)|)
            && ((cells.height == 0 || !ContainsZero(cells.rows[cells.height - 1])) ==>
                  r.matrix.width == 0 && r.barcodes == [])
  {
    var cells := CellsOf(genes, m, common);
    var zc := CellFilter(cells).matrix;
    FilteredWithBothFilters(genes, m, common);
    var f := Filtered(genes, m, common, true, true).value;
    PipelineIsFinish(genes, barcodes, m, common, true, true);
    var r := Pipeline(genes, barcodes, m, common, true, true).value;
    assert r == Finish(barcodes, f);
    FinishShape(barcodes, f);
  }

  /** `load` with the default flags, column by column: each column is a
      zero-containing cell cut to the kept genes. Column `j` carries the
      barcode at that cell's position among the zero-containing cells, not
      among all cells, because the barcodes are never filtered alongside
      the cell filter. */
  lemma PipelineDefaultColumnsAreCells(genes: seq<string>, barcodes: seq<string>, m: Matrix, common: set<string>)
    requires |genes| == m.height
    ensures Pipeline(genes, barcodes, m, common, true, true).Ok?
    ensures ColumnsAreCells(Pipeline(genes, barcodes, m, common, true, true).value,
                            CellFilter(CellsOf(genes, m, common)).matrix.rows, barcodes)
  {
    var zc := CellFilter(CellsOf(genes, m, common)).matrix;
    FilteredWithBothFilters(genes, m, common);
    var f := Filtered(genes, m, common, true, true).value;
    PipelineIsFinish(genes, barcodes, m, common, true, true);
    var r := Pipeline(genes, barcodes, m, common, true, true).value;
    FinishTakesCellPrefixes(barcodes, f, zc, r);
  }

  /** `load` with the transcript filter off: the final pass walks the gene
      rows, so the result is cells x genes. Its row count is the number of
      cells the cell filter kept (all cells when that filter is off too),
      and the barcodes were paired with genes, never more of them than
      subset gene rows. */
  lemma PipelineWithoutTranscriptFilter(genes: seq<string>, barcodes: seq<string>, m: Matrix,
                                        common: set<string>, filterCells: bool)
    requires |genes| == m.height
    ensures Pipeline(genes, barcodes, m, common, filterCells, false).Ok?
    ensures var cells := CellsOf(genes, m, common);
            var r := Pipeline(genes, barcodes, m, common, filterCells, false).value;
            && |r.barcodes| <= SubsetRows(genes, m, common).height
            && (r.matrix.height > 0 ==>
                  r.matrix.height == if filterCells then CellFilter(cells).matrix.height else cells.height)
  {
    var cells := CellsOf(genes, m, common);
    var stage := if filterCells then CellFilter(cells).matrix else cells;
    assert Filtered(genes, m, common, filterCells, false).value == stage;
    var mo := Transpose(stage);
    var s := FinalPass(barcodes, mo.rows);
    if s.rows != [] {
      assert s.rows[0] in mo.rows;
      assert mo.width == stage.height;
    }
  }

  /** `load` with both filters off: the final pass walks the subset's gene
      rows, so every output column is a live gene row of the subset, under
      the barcode at that gene row's position: barcodes are paired with
      genes, not cells. */
  lemma PipelineWithoutFiltersColumnsAreGenes(genes: seq<string>, barcodes: seq<string>, m: Matrix,
                                              common: set<string>)
    requires |genes| == m.height
    ensures Pipeline(genes, barcodes, m, common, false, false).Ok?
    ensures var r := Pipeline(genes, barcodes, m, common, false, false).value;
            var sub := SubsetRows(genes, m, common);
            forall j :: 0 <= j < r.matrix.width ==>
              exists p :: && 0 <= p < sub.height && p < |barcodes|
                          && Column(r.matrix, j) == sub.rows[p]
                          && r.barcodes[j] == barcodes[p]
  {
    var sub := SubsetRows(genes, m, common);
    var f := CellsOf(genes, m, common);
    PipelineIsFinish(genes, barcodes, m, common, false, false);
    ColumnsOfTranspose(sub);
    FinishColumnsAmong(barcodes, f, sub.rows);
  }

  /** The subset's gene rows restricted to the zero-containing cells: the
      gene rows the cell filter leaves, read across cells. */
  function ZeroCellGeneRows(genes: seq<string>, m: Matrix, common: set<string>): (g: seq<seq<nat>>)
    requires |genes| == m.height
    ensures var sub := SubsetRows(genes, m, common);
            && |g| == sub.height
            && forall p :: 0 <= p < |g| ==>
                 g[p] == Select(sub.rows[p], Mask(ContainsZero, CellsOf(genes, m, common).rows))
  {
    var sub := SubsetRows(genes, m, common);
    var keep := Mask(ContainsZero, CellsOf(genes, m, common).rows);
    seq(sub.height, p requires 0 <= p < sub.height => Select(sub.rows[p], keep))
  }

  /** `load` with only the cell filter on: every output column is a gene
      row of the subset restricted to the zero-containing cells, under the
      barcode at that gene row's position. */
  lemma PipelineCellFilterOnlyColumnsAreGenes(genes: seq<string>, barcodes: seq<string>, m: Matrix,
                                              common: set<string>)
    requires |genes| == m.height
    ensures Pipeline(genes, barcodes, m, common, true, false).Ok?
    ensures var r := Pipeline(genes, barcodes, m, common, true, false).value;
            var rows := ZeroCellGeneRows(genes, m, common);
            forall j :: 0 <= j < r.matrix.width ==>
              exists p :: && 0 <= p < |rows| && p < |barcodes|
                          && Column(r.matrix, j) == rows[p]
                          && r.barcodes[j] == barcodes[p]
  {
    var cells := CellsOf(genes, m, common);
    var zc := CellFilter(cells).matrix;
    var rows := ZeroCellGeneRows(genes, m, common);
    PipelineIsFinish(genes, barcodes, m, common, true, false);
    assert Pipeline(genes, barcodes, m, common, true, false).value == Finish(barcodes, zc);
    assert zc.width <= |rows| && forall p :: 0 <= p < zc.width ==> Column(zc, p) == rows[p] by {
      forall p | 0 <= p < zc.width ensures p < |rows| && Column(zc, p) == rows[p] {
        ZeroCellsOfGeneRow(genes, m, common, p);
      }
    }
    FinishColumnsAmong(barcodes, zc, rows);
  }

  /** When the filtered matrix's columns are listed in `cols`, every output
      column of the final pass is one of them, under the barcode at its
      position. */
  lemma FinishColumnsAmong(barcodes: seq<string>, f: Matrix, cols: seq<seq<nat>>)
    requires f.width <= |cols|
    requires forall p :: 0 <= p < f.width ==> Column(f, p) == cols[p]
    ensures var r := Finish(barcodes, f);
            forall j :: 0 <= j < r.matrix.width ==>
              exists p :: && 0 <= p < |cols| && p < |barcodes|
                          && Column(r.matrix, j) == cols[p]
                          && r.barcodes[j] == barcodes[p]
  {
    var r := Finish(barcodes, f);
    FinishKeepsColumns(barcodes, f);
    forall j | 0 <= j < r.matrix.width
      ensures exists p :: && 0 <= p < |cols| && p < |barcodes|
                          && Column(r.matrix, j) == cols[p]
                          && r.barcodes[j] == barcodes[p]
    {
      var p :| && 0 <= p < f.width && p < |barcodes|
               && Column(r.matrix, j) == Column(f, p)
               && r.barcodes[j] == barcodes[p];
      assert Column(r.matrix, j) == cols[p];
    }
  }

  /** Column `p` of the cell-filtered matrix is gene row `p` of the subset
      restricted to the zero-containing cells. */
  lemma ZeroCellsOfGeneRow(genes: seq<string>, m: Matrix, common: set<string>, p: nat)
    requires |genes| == m.height
    ensures var sub := SubsetRows(genes, m, common);
            var cells := CellsOf(genes, m, common);
            var zc := CellFilter(cells).matrix;
            p < zc.width ==> p < sub.height && Column(zc, p) == Select(sub.rows[p], Mask(ContainsZero, cells.rows))
  {
    var sub := SubsetRows(genes, m, common);
    var cells := CellsOf(genes, m, common);
    var zc := CellFilter(cells).matrix;
    if p < zc.width {
      var keep := Mask(ContainsZero, cells.rows);
      var idx := Positions(keep);
      var col, sel := Column(zc, p), Select(sub.rows[p], keep);
      forall k | 0 <= k < |col| ensures col[k] == sel[k] {
        assert zc.rows[k] == cells.rows[idx[k]];
      }
    }
  }

  /** Two genes, "a" and "b", measured in two cells: the first cell has
      counts (1, 1), the second (0, 3). */
  const ExampleCounts: Matrix := Grid(2, 2, [[1, 0], [1, 3]])

  lemma ExampleCells()
    ensures CellsOf(["A", "B"], ExampleCounts, {"A", "B"}) == Grid(2, 2, [[1, 1], [0, 3]])
  {
    var genes, common := ["A", "B"], {"A", "B"};
    assert Positions(GeneMask(genes, common)) == [0, 1];
    assert SubsetRows(genes, ExampleCounts, common) == ExampleCounts;
    var cells := CellsOf(genes, ExampleCounts, common);
    assert cells.rows[0] == [1, 1] && cells.rows[1] == [0, 3];
  }

  lemma ExampleCellFilter()
    ensures CellFilter(Grid(2, 2, [[1, 1], [0, 3]])) == CellStage(Grid(1, 2, [[0, 3]]), Some([0, 3]))
  {
    var cells: Matrix := Grid(2, 2, [[1, 1], [0, 3]]);
    assert ContainsZero([0, 3]) && !ContainsZero([1, 1]);
    assert Positions(Mask(ContainsZero, cells.rows)) == [1];
    var zc := CellFilter(cells);
    Singleton(zc.matrix.rows, [0, 3]);
  }

  lemma ExampleTransposes()
    ensures Transpose(Grid(1, 2, [[0, 3]])) == Grid(2, 1, [[0], [3]])
    ensures Transpose(Grid(2, 1, [[0], [3]])) == Grid(1, 2, [[0, 3]])
  {
    var t := Transpose(Grid(1, 2, [[0, 3]]));
    assert t.rows[0] == [0] && t.rows[1] == [3];
    var u := Transpose(Grid(2, 1, [[0], [3]]));
    assert u.rows[0] == [0, 3];
    Singleton(u.rows, [0, 3]);
  }

  lemma ExampleTranscriptFilter()
    ensures TranscriptFilter(2, Grid(2, 1, [[0], [3]]), Some([0, 3]), true) == Ok(Grid(2, 1, [[0], [3]]))
  {
    var tf := TranscriptFilter(2, Grid(2, 1, [[0], [3]]), Some([0, 3]), true);
    assert ContainsZero([0, 3]);
    assert tf.value.rows == [[0], [3]];
  }

  lemma ExampleDistinct()
    ensures |DistinctCommon(["A", "B"], {"A", "B"})| == 2
  {
    assert (set g | g in ["A", "B"]) == {"A", "B"};
    assert DistinctCommon(["A", "B"], {"A", "B"}) == {"A", "B"};
  }

  lemma ExampleFiltered()
    ensures Filtered(["A", "B"], ExampleCounts, {"A", "B"}, true, true) == Ok(Grid(2, 1, [[0], [3]]))
  {
    var genes, common := ["A", "B"], {"A", "B"};
    var cells := CellsOf(genes, ExampleCounts, common);
    var stage := CellFilter(cells);
    var k := |DistinctCommon(genes, common)|;
    assert Filtered(genes, ExampleCounts, common, true, true) ==
           TranscriptFilter(k, Transpose(stage.matrix), stage.lastCell, true);
    ExampleCells();
    ExampleCellFilter();
    ExampleTransposes();
    ExampleDistinct();
    ExampleTranscriptFilter();
  }

  lemma ExampleFinalPass()
    ensures FinalPass(["AAA", "CCC"], [[0, 3]]) == Survivors([[0, 3]], ["AAA"])
  {
    var s := FinalPass(["AAA", "CCC"], [[0, 3]]);
    assert Live([0, 3]) by {
      assert [0, 3][1] != 0;
    }
    assert [[0, 3]][..1] == [[0, 3]];
    assert Positions(Mask(Live, [[0, 3]])) == [0];
    assert |s.rows| == 1 && s.rows[0] == [0, 3] && s.barcodes[0] == "AAA";
    Singleton(s.rows, [0, 3]);
    Singleton(s.barcodes, "AAA");
  }

  lemma ExampleFinish()
    ensures Finish(["AAA", "CCC"], Grid(2, 1, [[0], [3]])) == Loaded(Grid(2, 1, [[0], [3]]), ["AAA"])
  {
    ExampleTransposes();
    ExampleFinalPass();
    assert FromRows([[0, 3]], 2) == Grid(1, 2, [[0, 3]]);
  }

  /** The misattribution of barcodes made concrete: of two cells "AAA" and
      "CCC", only "CCC" contains a zero, yet its counts come back under
      barcode "AAA". */
  lemma LoadPairsBarcodesByFilteredPosition()
    ensures var d := Dataset(map["Symbol" := ["a", "b"]],
                             map["Barcode" := ["AAA", "CCC"]],
                             map["counts" := ExampleCounts]);
            Load(d, "counts", "Symbol", true, true, {"A", "B"}) ==
              Ok(Loaded(Grid(2, 1, [[0], [3]]), ["AAA"]))
  {
    assert Upper("a") == "A" && Upper("b") == "B";
    assert UpperAll(["a", "b"]) == ["A", "B"];
    ExampleFiltered();
    ExampleFinish();
    PipelineIsFinish(["A", "B"], ["AAA", "CCC"], ExampleCounts, {"A", "B"}, true, true);
  }
}

=== FILE: matrices.dfy ===
/** Count matrices as numpy holds them: a shape and a rectangular list of
    rows of non-negative counts. The shape is kept explicitly because numpy
    keeps it too: selecting no rows of a G x C matrix gives a 0 x C matrix,
    whose transpose has C empty rows. */
module Matrices {
  import opened Failures

  datatype Grid = Grid(height: nat, width: nat, rows: seq<seq<nat>>)

  predicate Rectangular(g: Grid) {
    |g.rows| == g.height && forall i :: 0 <= i < |g.rows| ==> |g.rows[i]| == g.width
  }

  type Matrix = g: Grid | Rectangular(g) witness Grid(0, 0, [])

  /** `numpy.transpose` */
  function Transpose(m: Matrix): (t: Matrix)
    ensures t.height == m.width && t.width == m.height
    ensures forall i, j :: 0 <= i < t.height && 0 <= j < t.width ==> t.rows[i][j] == m.rows[j][i]
  {
    Grid(m.width, m.height,
         seq(m.width, j requires 0 <= j < m.width =>
           seq(m.height, i requires 0 <= i < m.height => m.rows[i][j])))
  }

  /** Column `j` of a matrix. */
  function Column(m: Matrix, j: nat): (c: seq<nat>)
    requires j < m.width
    ensures |c| == m.height
    ensures forall i :: 0 <= i < m.height ==> c[i] == m.rows[i][j]
  {
    Transpose(m).rows[j]
  }

  /** Transposing twice gives back the matrix, shape included. */
  lemma TransposeTwice(m: Matrix)
    ensures Transpose(Transpose(m)) == m
  {
    var tt := Transpose(Transpose(m));
    assert forall i :: 0 <= i < m.height ==> tt.rows[i] == m.rows[i];
  }

  /** The columns of a transpose are the rows of the original. */
  lemma ColumnsOfTranspose(m: Matrix)
    ensures forall j :: 0 <= j < m.height ==> Column(Transpose(m), j) == m.rows[j]
  {
    TransposeTwice(m);
  }

  /** `numpy.array(rows)` on a list of equal-length rows. An empty list
      gives numpy's flat empty array, which behaves here as the 0 x 0
      matrix (it has no rows, and its transpose has none either). */
  function FromRows(rows: seq<seq<nat>>, width: nat): (m: Matrix)
    requires forall r :: r in rows ==> |r| == width
    ensures m.rows == rows && m.height == |rows|
    ensures m.width == if rows == [] then 0 else width
  {
    if rows == [] then Grid(0, 0, []) else Grid(|rows|, width, rows)
  }

  /** The number of zero entries of a row: `list(row).count(0)`. */
  function ZeroCount(row: seq<nat>): (n: nat)
    ensures n <= |row|
    ensures n == multiset(row)[0]
    decreases |row|
  {
    if row == [] then 0
    else
      var k := |row| - 1;
      assert row == row[..k] + [row[k]];
      ZeroCount(row[..k]) + (if row[k] == 0 then 1 else 0)
  }

  /** The cell-filter test as written: `count(0) > 0`. */
  predicate HasZero(row: seq<nat>): (b: bool)
    ensures b <==> ContainsZero(row)
  {
    ZeroCountBounds(row);
    ZeroCount(row) > 0
  }

  /** The final-pass test as written: `count(0.0) != len(row)`. */
  predicate NotAllZero(row: seq<nat>): (b: bool)
    ensures b <==> Live(row)
  {
    ZeroCountBounds(row);
    ZeroCount(row) != |row|
  }

  /** A row with a zero entry: what the cell filter tests for. */
  predicate ContainsZero(row: seq<nat>) {
    0 in row
  }

  /** A row with a nonzero entry: what the final pass means to keep. */
  predicate Live(row: seq<nat>) {
    exists j :: 0 <= j < |row| && row[j] != 0
  }

  /** Counting zeros: no zero is counted exactly when no entry is zero, and
      every entry is counted exactly when every entry is zero. */
  lemma {:induction false} ZeroCountBounds(row: seq<nat>)
    ensures ZeroCount(row) == 0 <==> 0 !in row
    ensures ZeroCount(row) == |row| <==> forall j :: 0 <= j < |row| ==> row[j] == 0
    decreases |row|
  {
    if row != [] {
      var n := |row| - 1;
      ZeroCountBounds(row[..n]);
      assert row == row[..n] + [row[n]];
    }
  }

  /** The count-based cell test holds exactly for rows containing a zero. */
  lemma HasZeroMeansZeroEntry(row: seq<nat>)
    ensures HasZero(row) <==> ContainsZero(row)
  {
  }

  /** The count-based final-pass test holds exactly for live rows; in
      particular an empty row fails it. */
  lemma NotAllZeroMeansLive(row: seq<nat>)
    ensures NotAllZero(row) <==> Live(row)
  {
  }

  /** `numpy.hstack((a, b))`: the rows of `b` are appended to those of `a`,
      which needs equal row counts. Two flat empty arrays stack to a flat
      empty array; a flat empty array against a two-dimensional one fails
      in numpy, as its 0 rows fail here against a matrix with rows. */
  function HStack(a: Matrix, b: Matrix): (r: Result<Matrix>)
    ensures r.Ok? <==> a.height == b.height
    ensures r.Ok? ==> r.value.height == a.height && r.value.width == a.width + b.width
    ensures r.Err? ==> r.error == StackMismatch(a.height, b.height)
  {
    if a.height != b.height then Err(StackMismatch(a.height, b.height))
    else Ok(Grid(a.height, a.width + b.width,
                 seq(a.height, i requires 0 <= i < a.height => a.rows[i] + b.rows[i])))
  }

  /** Stacking side by side is appending columns: viewed as columns (the
      transpose), the result lists the columns of `a`, then those of `b`. */
  lemma HStackAppendsColumns(a: Matrix, b: Matrix)
    requires a.height == b.height
    ensures HStack(a, b).Ok?
    ensures Transpose(HStack(a, b).value).rows == Transpose(a).rows + Transpose(b).rows
  {
    var s := HStack(a, b).value;
    var lhs := Transpose(s).rows;
    var rhs := Transpose(a).rows + Transpose(b).rows;
    assert |lhs| == |rhs|;
    forall j | 0 <= j < |lhs|
      ensures lhs[j] == rhs[j]
    {
      if j < a.width {
        assert forall i :: 0 <= i < a.height ==> lhs[j][i] == a.rows[i][j];
      } else {
        assert forall i :: 0 <= i < a.height ==> lhs[j][i] == b.rows[i][j - a.width];
      }
    }
  }
}

=== FILE: run_em.dfy ===
/** The pure parts of `run_em`: gathering the datasets, restricting the
    common genes to the marker genes, loading and pooling every sample side
    by side, the dimension check against the marker matrix, and relabelling
    the fit's cell-type codes. The marker reference and the fit itself are
    computed elsewhere and enter as parameters. */
module RunEm {
  import opened Failures
  import opened Matrices
  import opened Symbols
  import opened Datasets
  import opened GeneSets
  import opened Loader
  import opened Labels

  /** The marker reference: its gene list, its cell types in order, and the
      binary marker matrix it builds for a set of genes (one row per gene). */
  datatype Markers = Markers(
    genes: seq<string>,
    celltypes: seq<string>,
    matrixFor: set<string> -> Matrix)

  /** What the fitting step receives: cells x genes counts, the marker
      matrix, the pooled barcodes and the genes used. */
  datatype Prepared = Prepared(
    expression: Matrix,
    markers: Matrix,
    barcodes: seq<string>,
    genes: set<string>)

  /** The saved result: one label per fitted cell and the pooled barcodes. */
  datatype Fit = Fit(cellType: seq<string>, barcode: seq<string>)

  /** The first dataset followed by the additional ones, if any. */
  function AllData(rdata: Dataset, additional: Option<seq<Dataset>>): (all: seq<Dataset>)
    ensures |all| >= 1 && all[0] == rdata
    ensures additional.None? ==> |all| == 1
    ensures additional.Some? ==> all[1..] == additional.value
  {
    match additional
    case None => [rdata]
    case Some(more) => [rdata] + more
  }

  /** The genes the fit uses: common to every dataset and listed by the
      marker reference. */
  function FitGenes(all: seq<Dataset>, symbol: string, rho: Markers): (r: Result<set<string>>)
    ensures r.Ok? <==> CommonGenes(all, symbol).Ok?
    ensures r.Err? ==> r.error == CommonGenes(all, symbol).error
    ensures r.Ok? ==> forall g :: g in r.value <==>
      && g in rho.genes
      && g in GenesOf(all[0], symbol)
      && forall i :: 1 <= i < |all| ==> g in GenesOf(all[i], SymbolColumn)
    ensures r.Ok? ==> forall g :: g in r.value ==> Upper(g) == g
  {
    var common :- CommonGenes(all, symbol);
    CommonGenesAreUppercase(all, symbol);
    Ok((set g | g in rho.genes) * common)
  }

  /** One barcode per column, and either the flat empty array or both
      dimensions present: the shape every loaded sample has. */
  predicate Shaped(l: Loaded) {
    && l.matrix.width == |l.barcodes|
    && (l.matrix.height == 0 <==> l.matrix.width == 0)
  }

  /** `load` with every argument but the dataset fixed. */
  function Loading(assay: string, symbol: string, filterCells: bool, filterTranscripts: bool,
                   genes: set<string>): Dataset -> Result<Loaded>
  {
    d => Load(d, assay, symbol, filterCells, filterTranscripts, genes)
  }

  lemma LoadingIsShaped(assay: string, symbol: string, filterCells: bool, filterTranscripts: bool,
                        genes: set<string>, d: Dataset)
    ensures var r := Loading(assay, symbol, filterCells, filterTranscripts, genes)(d);
            r.Ok? ==> Shaped(r.value)
  {
  }

  /** Every sample loads, each with `height` gene rows. */
  predicate Stackable(height: nat, rest: seq<Dataset>, load: Dataset -> Result<Loaded>) {
    forall i :: 0 <= i < |rest| ==> load(rest[i]).Ok? && load(rest[i]).value.matrix.height == height
  }

  /** The failure pooling meets at sample `next`: its load error, or the
      row-count mismatch `numpy.hstack` reports. */
  function SampleFailure(height: nat, next: Dataset, load: Dataset -> Result<Loaded>): (e: Error)
    ensures load(next).Err? ==> e == load(next).error
    ensures load(next).Ok? ==>
              && e.StackMismatch?
              && forall a: Matrix :: a.height == height && HStack(a, load(next).value.matrix).Err? ==>
                   HStack(a, load(next).value.matrix).error == e
  {
    if load(next).Err? then load(next).error
    else StackMismatch(height, load(next).value.matrix.height)
  }

  /** The additional samples, each read by `load`, stacked one after the
      other to the right of what has been pooled so far, their barcodes
      appended. Pooling succeeds exactly when every sample loads with the
      pool's row count; otherwise it fails with the load or stack error of
      the first sample that does not. */
  function Pool(acc: Loaded, rest: seq<Dataset>, load: Dataset -> Result<Loaded>): (r: Result<Loaded>)
    ensures r.Ok? <==> Stackable(acc.matrix.height, rest, load)
    ensures r.Err? ==> exists i :: && 0 <= i < |rest|
                                   && Stackable(acc.matrix.height, rest[..i], load)
                                   && r.error == SampleFailure(acc.matrix.height, rest[i], load)
    ensures r.Ok? ==> r.value.matrix.height == acc.matrix.height
    ensures r.Ok? ==> r.value.matrix.width >= acc.matrix.width
    ensures r.Ok? && Shaped(acc) && (forall d :: d in rest && load(d).Ok? ==> Shaped(load(d).value)) ==>
              Shaped(r.value)
    decreases |rest|
  {
    if rest == [] then Ok(acc)
    else
      StackableStep(acc.matrix.height, rest, load);
      var next :- load(rest[0]);
      var stacked :- HStack(acc.matrix, next.matrix);
      var r := Pool(Loaded(stacked, acc.barcodes + next.barcodes), rest[1..], load);
      assert r.Err? ==> exists i :: && 0 <= i < |rest|
                                    && Stackable(acc.matrix.height, rest[..i], load)
                                    && r.error == SampleFailure(acc.matrix.height, rest[i], load) by {
        if r.Err? {
          var i :| && 0 <= i < |rest[1..]|
                   && Stackable(acc.matrix.height, rest[1..][..i], load)
                   && r.error == SampleFailure(acc.matrix.height, rest[1..][i], load);
          StackablePrefixStep(acc.matrix.height, rest, load, i);
        }
      }
      r
  }

  /** Stackability of a non-empty list: the head and then the tail. */
  lemma StackableStep(height: nat, rest: seq<Dataset>, load: Dataset -> Result<Loaded>)
    requires rest != []
    ensures Stackable(height, rest, load) <==>
              && load(rest[0]).Ok? && load(rest[0]).value.matrix.height == height
              && Stackable(height, rest[1..], load)
    ensures Stackable(height, rest[..0], load)
  {
    if load(rest[0]).Ok? && load(rest[0]).value.matrix.height == height && Stackable(height, rest[1..], load) {
      forall i | 1 <= i < |rest|
        ensures load(rest[i]).Ok? && load(rest[i]).value.matrix.height == height
      {
        assert rest[i] == rest[1..][i - 1];
      }
    }
  }

  /** A stackable prefix of the tail, behind a stackable head, is a
      stackable prefix one longer. */
  lemma StackablePrefixStep(height: nat, rest: seq<Dataset>, load: Dataset -> Result<Loaded>, i: nat)
    requires i < |rest| - 1
    requires load(rest[0]).Ok? && load(rest[0]).value.matrix.height == height
    requires Stackable(height, rest[1..][..i], load)
    ensures Stackable(height, rest[..i + 1], load)
    ensures rest[1..][i] == rest[i + 1]
  {
    var prefix, tail := rest[..i + 1], rest[1..][..i];
    forall k | 1 <= k < |prefix|
      ensures load(prefix[k]).Ok? && load(prefix[k]).value.matrix.height == height
    {
      assert prefix[k] == tail[k - 1];
    }
  }

  /** Each sample read on its own, stopping at the first failure. */
  function LoadEach(rest: seq<Dataset>, load: Dataset -> Result<Loaded>): (r: Result<seq<Loaded>>)
    ensures r.Ok? <==> forall i :: 0 <= i < |rest| ==> load(rest[i]).Ok?
    ensures r.Ok? ==> |r.value| == |rest|
    ensures r.Ok? ==> forall i :: 0 <= i < |rest| ==> load(rest[i]) == Ok(r.value[i])
    decreases |rest|
  {
    if rest == [] then Ok([])
    else
      var first :- load(rest[0]);
      var others :- LoadEach(rest[1..], load);
      assert forall i :: 1 <= i < |rest| ==> rest[i] == rest[1..][i - 1];
      Ok([first] + others)
  }

  /** The columns (cells) of a list of loaded samples, one sample after another. */
  function AllColumns(samples: seq<Loaded>): seq<seq<nat>>
    decreases |samples|
  {
    if samples == [] then [] else Transpose(samples[0].matrix).rows + AllColumns(samples[1..])
  }

  /** The number of cells over a list of loaded samples. */
  function TotalWidth(samples: seq<Loaded>): nat
    decreases |samples|
  {
    if samples == [] then 0 else samples[0].matrix.width + TotalWidth(samples[1..])
  }

  /** Listing every sample's columns gives as many columns as the samples
      have together. */
  lemma {:induction false} AllColumnsCount(samples: seq<Loaded>)
    ensures |AllColumns(samples)| == TotalWidth(samples)
    decreases |samples|
  {
    if samples != [] {
      AllColumnsCount(samples[1..]);
    }
  }

  /** The barcodes of a list of loaded samples, one sample after another. */
  function AllBarcodes(samples: seq<Loaded>): seq<string>
    decreases |samples|
  {
    if samples == [] then [] else samples[0].barcodes + AllBarcodes(samples[1..])
  }

  /** Pooling succeeds only when every sample loads, each with the same
      number of gene rows as the pool. */
  lemma {:induction false} PoolLoadsEverySample(acc: Loaded, rest: seq<Dataset>, load: Dataset -> Result<Loaded>)
    requires Pool(acc, rest, load).Ok?
    ensures LoadEach(rest, load).Ok?
    ensures forall i :: 0 <= i < |rest| ==> LoadEach(rest, load).value[i].matrix.height == acc.matrix.height
    decreases |rest|
  {
    if rest != [] {
      var next := load(rest[0]).value;
      var acc' := Loaded(HStack(acc.matrix, next.matrix).value, acc.barcodes + next.barcodes);
      PoolLoadsEverySample(acc', rest[1..], load);
      var tail := LoadEach(rest[1..], load).value;
      var all := LoadEach(rest, load).value;
      assert all == [next] + tail;
      forall i | 1 <= i < |rest| ensures all[i].matrix.height == acc.matrix.height {
        assert all[i] == tail[i - 1];
      }
    }
  }

  /** The pooled columns are the pool's own followed by each sample's in turn. */
  lemma {:induction false} PoolAppendsColumns(acc: Loaded, rest: seq<Dataset>, load: Dataset -> Result<Loaded>)
    requires Pool(acc, rest, load).Ok?
    ensures LoadEach(rest, load).Ok?
    ensures Transpose(Pool(acc, rest, load).value.matrix).rows
            == Transpose(acc.matrix).rows + AllColumns(LoadEach(rest, load).value)
    decreases |rest|
  {
    PoolLoadsEverySample(acc, rest, load);
    if rest != [] {
      var next := load(rest[0]).value;
      var acc' := Loaded(HStack(acc.matrix, next.matrix).value, acc.barcodes + next.barcodes);
      HStackAppendsColumns(acc.matrix, next.matrix);
      assert Pool(acc, rest, load) == Pool(acc', rest[1..], load);
      PoolAppendsColumns(acc', rest[1..], load);
      var tail := LoadEach(rest[1..], load).value;
      var all := LoadEach(rest, load).value;
      assert all == [next] + tail;
      assert all[1..] == tail;
      assert AllColumns(all) == Transpose(next.matrix).rows + AllColumns(tail);
    }
  }

  /** The pooled barcodes are the pool's own followed by each sample's in turn. */
  lemma {:induction false} PoolAppendsBarcodes(acc: Loaded, rest: seq<Dataset>, load: Dataset -> Result<Loaded>)
    requires Pool(acc, rest, load).Ok?
    ensures LoadEach(rest, load).Ok?
    ensures Pool(acc, rest, load).value.barcodes == acc.barcodes + AllBarcodes(LoadEach(rest, load).value)
    decreases |rest|
  {
    PoolLoadsEverySample(acc, rest, load);
    if rest != [] {
      var next := load(rest[0]).value;
      var acc' := Loaded(HStack(acc.matrix, next.matrix).value, acc.barcodes + next.barcodes);
      assert Pool(acc, rest, load) == Pool(acc', rest[1..], load);
      PoolAppendsBarcodes(acc', rest[1..], load);
      var tail := LoadEach(rest[1..], load).value;
      var all := LoadEach(rest, load).value;
      assert all == [next] + tail;
      assert all[1..] == tail;
      assert AllBarcodes(all) == next.barcodes + AllBarcodes(tail);
    }
  }

  /** The genes chosen and the samples pooled. */
  datatype Gathered = Gathered(genes: set<string>, pooled: Loaded)

  /** Lines 101-114 of `run_em`: pick the genes, load the first dataset
      with them and pool every additional one after it, loaded with the
      same genes. The first failing step decides the error. */
  function Gather(rdata: Dataset, additional: Option<seq<Dataset>>, rho: Markers, assay: string,
                  symbol: string, filterCells: bool, filterTranscripts: bool): (r: Result<Gathered>)
    ensures var fit := FitGenes(AllData(rdata, additional), symbol, rho);
            && (fit.Err? ==> r == Err(fit.error))
            && (fit.Ok? ==>
                  var first := Load(rdata, assay, symbol, filterCells, filterTranscripts, fit.value);
                  && (first.Err? ==> r == Err(first.error))
                  && (first.Ok? ==>
                        var pool := Pool(first.value, Additional(additional),
                                         Loading(assay, symbol, filterCells, filterTranscripts, fit.value));
                        && (pool.Err? ==> r == Err(pool.error))
                        && (pool.Ok? ==> r == Ok(Gathered(fit.value, pool.value)))))
    ensures r.Ok? ==> Shaped(r.value.pooled)
    ensures r.Ok? ==> forall g :: g in r.value.genes ==> g in rho.genes && Upper(g) == g
  {
    var all := AllData(rdata, additional);
    var genes :- FitGenes(all, symbol, rho);
    var first :- Load(rdata, assay, symbol, filterCells, filterTranscripts, genes);
    var more := Additional(additional);
    var load := Loading(assay, symbol, filterCells, filterTranscripts, genes);
    PoolOfLoadsIsShaped(first, more, assay, symbol, filterCells, filterTranscripts, genes);
    var pooled :- Pool(first, more, load);
    Ok(Gathered(genes, pooled))
  }

  /** Pooling shaped loads gives a shaped result. */
  lemma PoolOfLoadsIsShaped(first: Loaded, more: seq<Dataset>, assay: string, symbol: string,
                            filterCells: bool, filterTranscripts: bool, genes: set<string>)
    ensures var r := Pool(first, more, Loading(assay, symbol, filterCells, filterTranscripts, genes));
            r.Ok? && Shaped(first) ==> Shaped(r.value)
  {
    var load := Loading(assay, symbol, filterCells, filterTranscripts, genes);
    forall d | d in more && load(d).Ok? ensures Shaped(load(d).value) {
      LoadingIsShaped(assay, symbol, filterCells, filterTranscripts, genes, d);
    }
  }

  /** The additional datasets, none when there are none. */
  function Additional(additional: Option<seq<Dataset>>): seq<Dataset> {
    match additional case None => [] case Some(m) => m
  }

  /** The pooled matrix of `run_em` lists the first dataset's cells, then
      every additional dataset's cells in turn; the pooled barcodes follow
      the same order. */
  lemma GatherConcatenatesSamples(rdata: Dataset, additional: Option<seq<Dataset>>, rho: Markers, assay: string,
                                  symbol: string, filterCells: bool, filterTranscripts: bool)
    ensures Gather(rdata, additional, rho, assay, symbol, filterCells, filterTranscripts).Ok? ==>
      var g := Gather(rdata, additional, rho, assay, symbol, filterCells, filterTranscripts).value;
      var first := Load(rdata, assay, symbol, filterCells, filterTranscripts, g.genes);
      var rest := LoadEach(Additional(additional), Loading(assay, symbol, filterCells, filterTranscripts, g.genes));
      && first.Ok? && rest.Ok?
      && Transpose(g.pooled.matrix).rows == Transpose(first.value.matrix).rows + AllColumns(rest.value)
      && g.pooled.matrix.width == first.value.matrix.width + TotalWidth(rest.value)
      && g.pooled.barcodes == first.value.barcodes + AllBarcodes(rest.value)
  {
    var gathered := Gather(rdata, additional, rho, assay, symbol, filterCells, filterTranscripts);
    if gathered.Ok? {
      var g := gathered.value;
      var first := Load(rdata, assay, symbol, filterCells, filterTranscripts, g.genes).value;
      var load := Loading(assay, symbol, filterCells, filterTranscripts, g.genes);
      assert Pool(first, Additional(additional), load) == Ok(g.pooled);
      PoolAppendsColumns(first, Additional(additional), load);
      PoolAppendsBarcodes(first, Additional(additional), load);
      AllColumnsCount(LoadEach(Additional(additional), load).value);
    }
  }

  /** Lines 114-122 of `run_em`: build the marker matrix for the chosen
      genes, turn the pooled genes x cells matrix into cells x genes, and
      insist that its gene count is the marker matrix's row count. A pool
      with no rows is numpy's flat empty array, which has no second
      dimension to compare. */
  function Prepare(rdata: Dataset, additional: Option<seq<Dataset>>, rho: Markers, assay: string,
                   symbol: string, filterCells: bool, filterTranscripts: bool): (r: Result<Prepared>)
    ensures r.Ok? ==> r.value.expression.width == r.value.markers.height
    ensures r.Ok? ==> r.value.markers == rho.matrixFor(r.value.genes)
    ensures r.Ok? ==> r.value.expression.height == |r.value.barcodes| > 0
    ensures r.Ok? ==> forall g :: g in r.value.genes ==> g in rho.genes && Upper(g) == g
    ensures var g := Gather(rdata, additional, rho, assay, symbol, filterCells, filterTranscripts);
            g.Err? ==> r == Err(g.error)
    ensures var g := Gather(rdata, additional, rho, assay, symbol, filterCells, filterTranscripts);
            g.Ok? ==>
              && (r.Ok? <==> 0 < g.value.pooled.matrix.height == rho.matrixFor(g.value.genes).height)
              && (r.Err? ==> r.error == if g.value.pooled.matrix.height == 0 then FlatMatrix
                                        else DimensionMismatch(g.value.pooled.matrix.height,
                                                               rho.matrixFor(g.value.genes).height))
              && (r.Ok? ==> r.value.barcodes == g.value.pooled.barcodes)
              && (r.Ok? ==> Transpose(r.value.expression) == g.value.pooled.matrix)
  {
    var gathered :- Gather(rdata, additional, rho, assay, symbol, filterCells, filterTranscripts);
    var pooled := gathered.pooled;
    var markers := rho.matrixFor(gathered.genes);
    var expression := Transpose(pooled.matrix);
    TransposeTwice(pooled.matrix);
    if pooled.matrix.height == 0 then Err(FlatMatrix)
    else if expression.width != markers.height then Err(DimensionMismatch(expression.width, markers.height))
    else Ok(Prepared(expression, markers, pooled.barcodes, gathered.genes))
  }

  /** The whole of `run_em` with the fit supplied as `cellassign`: it fails
      where preparation fails, or with the label dictionary's KeyError when
      some code's rank reaches the number of cell types. Otherwise the
      saved labels are the marker reference's cell types picked by code
      rank, and the saved barcodes are the pooled barcodes. */
  function RunEm(rdata: Dataset, additional: Option<seq<Dataset>>, rho: Markers, assay: string,
                 symbol: string, filterCells: bool, filterTranscripts: bool,
                 cellassign: (Matrix, Matrix) -> seq<int>): (r: Result<Fit>)
    ensures var p := Prepare(rdata, additional, rho, assay, symbol, filterCells, filterTranscripts);
            && (p.Err? ==> r == Err(p.error))
            && (p.Ok? ==>
                  var codes := cellassign(p.value.expression, p.value.markers);
                  && (r.Ok? <==> forall i :: 0 <= i < |codes| ==> Rank(codes[i], codes) < |rho.celltypes|)
                  && (r.Err? ==> r.error == Remap(codes, rho.celltypes).error)
                  && (r.Ok? ==> RankLabels(codes, rho.celltypes, r.value.cellType))
                  && (r.Ok? ==> r.value.barcode == p.value.barcodes))
    ensures r.Ok? ==> forall i :: 0 <= i < |r.value.cellType| ==> r.value.cellType[i] in rho.celltypes
  {
    var p :- Prepare(rdata, additional, rho, assay, symbol, filterCells, filterTranscripts);
    var codes := cellassign(p.expression, p.markers);
    var labels :- Remap(codes, rho.celltypes);
    Ok(Fit(labels, p.barcodes))
  }
}

=== FILE: seqs.dfy ===
/** Sequence operations the Python code uses implicitly: truncating `zip`,
    boolean-mask selection (`matrix[mask]`), and the "append when the test
    holds" loop, which is selection by a mask computed from a predicate. */
module Seqs {

  function Min(a: nat, b: nat): nat {
    if a <= b then a else b
  }

  /** Each element is smaller than every later one. */
  predicate StrictlyIncreasing(s: seq<int>) {
    forall i, j :: 0 <= i < j < |s| ==> s[i] < s[j]
  }

  /** Python's `zip`: pairs up positions and stops at the shorter input. */
  function Zip<A, B>(xs: seq<A>, ys: seq<B>): (z: seq<(A, B)>)
    ensures |z| == Min(|xs|, |ys|)
    ensures forall i :: 0 <= i < |z| ==> z[i].0 == xs[i] && z[i].1 == ys[i]
  {
    seq(Min(|xs|, |ys|), i requires 0 <= i < Min(|xs|, |ys|) => (xs[i], ys[i]))
  }

  function Firsts<A, B>(z: seq<(A, B)>): (xs: seq<A>)
    ensures |xs| == |z|
    ensures forall i :: 0 <= i < |z| ==> xs[i] == z[i].0
  {
    seq(|z|, i requires 0 <= i < |z| => z[i].0)
  }

  function Seconds<A, B>(z: seq<(A, B)>): (ys: seq<B>)
    ensures |ys| == |z|
    ensures forall i :: 0 <= i < |z| ==> ys[i] == z[i].1
  {
    seq(|z|, i requires 0 <= i < |z| => z[i].1)
  }

  /** Unzipping and zipping again gives back the pairs. */
  lemma ZipOfUnzip<A, B>(z: seq<(A, B)>)
    ensures Zip(Firsts(z), Seconds(z)) == z
  {
  }

  /** The boolean mask `[p(x) for x in s]`. */
  function Mask<T>(p: T -> bool, s: seq<T>): (keep: seq<bool>)
    ensures |keep| == |s|
    ensures forall i :: 0 <= i < |s| ==> keep[i] == p(s[i])
  {
    seq(|s|, i requires 0 <= i < |s| => p(s[i]))
  }

  /** The positions a mask selects, in increasing order: exactly the
      indices whose flag is set. */
  function Positions(keep: seq<bool>): (idx: seq<nat>)
    ensures StrictlyIncreasing(idx)
    ensures |idx| <= |keep|
    ensures forall k :: 0 <= k < |idx| ==> idx[k] < |keep| && keep[idx[k]]
    ensures forall i :: 0 <= i < |keep| && keep[i] ==> i in idx
    decreases |keep|
  {
    if keep == [] then []
    else
      var n := |keep| - 1;
      Positions(keep[..n]) + (if keep[n] then [n] else [])
  }

  /** Mask selection, written as the append loop over the input: the result
      holds the selected elements, in their original order, duplicates
      included. */
  function Select<T>(s: seq<T>, keep: seq<bool>): (r: seq<T>)
    requires |keep| == |s|
    ensures |r| == |Positions(keep)|
    ensures forall k :: 0 <= k < |r| ==> r[k] == s[Positions(keep)[k]]
    decreases |s|
  {
    if s == [] then []
    else
      var n := |s| - 1;
      assert keep[..n] + [keep[n]] == keep;
      Select(s[..n], keep[..n]) + (if keep[n] then [s[n]] else [])
  }

  /** `[x for x in s if p(x)]` */
  function Filter<T(!new)>(p: T -> bool, s: seq<T>): (r: seq<T>)
    ensures |r| <= |s|
    ensures forall x :: x in r <==> x in s && p(x)
    ensures |r| == |Positions(Mask(p, s))|
    ensures forall k :: 0 <= k < |r| ==> r[k] == s[Positions(Mask(p, s))[k]]
  {
    var keep := Mask(p, s);
    var r := Select(s, keep);
    assert forall x :: x in s && p(x) ==> x in r by {
      forall x | x in s && p(x)
        ensures x in r
      {
        var i :| 0 <= i < |s| && s[i] == x;
        var k :| 0 <= k < |Positions(keep)| && Positions(keep)[k] == i;
        assert r[k] == x;
      }
    }
    r
  }

  /** A mask that selects everything returns the input unchanged. */
  lemma {:induction false} SelectAll<T>(s: seq<T>, keep: seq<bool>)
    requires |keep| == |s|
    requires forall i :: 0 <= i < |keep| ==> keep[i]
    ensures Select(s, keep) == s
    decreases |s|
  {
    if s != [] {
      var n := |s| - 1;
      SelectAll(s[..n], keep[..n]);
      calc {
        Select(s, keep);
        Select(s[..n], keep[..n]) + [s[n]];
        s[..n] + [s[n]];
        s;
      }
    }
  }

  /** A mask that selects nothing returns the empty sequence. */
  lemma {:induction false} SelectNone<T>(s: seq<T>, keep: seq<bool>)
    requires |keep| == |s|
    requires forall i :: 0 <= i < |keep| ==> !keep[i]
    ensures Select(s, keep) == []
    decreases |s|
  {
    if s != [] {
      var n := |s| - 1;
      SelectNone(s[..n], keep[..n]);
    }
  }

  /** Filtering a sequence whose elements all pass keeps it whole. */
  lemma FilterKeepsPassing<T(!new)>(p: T -> bool, s: seq<T>)
    requires forall i :: 0 <= i < |s| ==> p(s[i])
    ensures Filter(p, s) == s
  {
    SelectAll(s, Mask(p, s));
  }

  /** Filtering a sequence whose elements all fail empties it. */
  lemma FilterDropsFailing<T(!new)>(p: T -> bool, s: seq<T>)
    requires forall i :: 0 <= i < |s| ==> !p(s[i])
    ensures Filter(p, s) == []
  {
    SelectNone(s, Mask(p, s));
  }

  /** Filtering twice with the same test is filtering once. */
  lemma FilterIdempotent<T(!new)>(p: T -> bool, s: seq<T>)
    ensures Filter(p, Filter(p, s)) == Filter(p, s)
  {
    var r := Filter(p, s);
    assert forall i :: 0 <= i < |r| ==> p(r[i]) by {
      forall i | 0 <= i < |r|
        ensures p(r[i])
      {
        assert r[i] in r;
      }
    }
    FilterKeepsPassing(p, r);
  }

  /** The set of elements of a sequence is no larger than the sequence. */
  lemma {:induction false} ElementsAtMostLength<T>(s: seq<T>)
    ensures |set x | x in s| <= |s|
    decreases |s|
  {
    if s != [] {
      var n := |s| - 1;
      ElementsAtMostLength(s[..n]);
      assert (set x | x in s) == (set x | x in s[..n]) + {s[n]} by {
        assert s == s[..n] + [s[n]];
      }
    }
  }

  /** A subset is no larger than its superset. */
  lemma SubsetNoLarger<T>(a: set<T>, b: set<T>)
    requires a <= b
    ensures |a| <= |b|
  {
    assert b == a + (b - a);
  }

  /** A sequence of length one is the singleton of its element. */
  lemma Singleton<T>(s: seq<T>, x: T)
    requires |s| == 1 && s[0] == x
    ensures s == [x]
  {
  }
}

=== FILE: symbols.dfy ===
/** Gene symbols and the uppercasing applied to them before matching.
    Uppercasing is modelled on ASCII letters. */
module Symbols {

  function UpperChar(c: char): char {
    if 'a' <= c <= 'z' then (c as int - 32) as char else c
  }

  /** `str.upper` restricted to ASCII letters. */
  function Upper(s: string): (u: string)
    ensures |u| == |s|
    ensures forall i :: 0 <= i < |s| ==> u[i] == UpperChar(s[i])
    ensures forall i :: 0 <= i < |u| ==> !('a' <= u[i] <= 'z')
  {
    seq(|s|, i requires 0 <= i < |s| => UpperChar(s[i]))
  }

  /** Uppercasing an uppercased symbol changes nothing. */
  lemma UpperIdempotent(s: string)
    ensures Upper(Upper(s)) == Upper(s)
  {
  }

  /** `list(map(lambda x: x.upper(), symbols))` */
  function UpperAll(symbols: seq<string>): (u: seq<string>)
    ensures |u| == |symbols|
    ensures forall i :: 0 <= i < |symbols| ==> u[i] == Upper(symbols[i])
  {
    seq(|symbols|, i requires 0 <= i < |symbols| => Upper(symbols[i]))
  }

  /** `set(map(lambda x: x.upper(), symbols))` */
  function UpperSet(symbols: seq<string>): (r: set<string>)
    ensures forall x :: x in r <==> exists g :: g in symbols && Upper(g) == x
  {
    set g | g in symbols :: Upper(g)
  }
}
